=== FILE: README.md ===
# Weight initialisation of Perceptia modules, in Dafny

This project models the weight-initialisation walk of Perceptia's
`BaseModule` (`perceptia/modules/base_module.py`): `__init__`,
`init_weights` and `_finalize_init`. `init_weights` walks a tree of modules
once, depth-first. At each BaseModule that is not yet initialised it does
the following, in order:

1. Split `init_cfg` into "pretrained" rules and other rules.
2. Apply the other rules.
3. For each child in order that has an `init_weights` and is not yet initialised, call that `init_weights` and then, right after it, give the child an `update_init_info` entry.
4. Apply the pretrained rules last.
5. Set `_is_init`.

The call on which no tracking map is present is the top-level call.

- It creates the per-parameter provenance map (`_params_init_info`).
- It installs that map on every module before doing any work, so nested calls see it and are never top-level.
- When it returns normally, it reports one line per parameter and then removes the map from every module.

Everything is a pure function over an immutable tree:

- `ModuleTree.Node` is a module. It carries its identity, class name, attribute name, kind, own parameters, children in registration order, and whether it holds the tracking map.
- The kind is one of three:
  - a BaseModule, with its `init_cfg` and `_is_init`;
  - a module of another library that has its own `init_weights`;
  - a plain module.
- `BaseModule.InitWeights` returns a `Run`: the updated tree, the map contents, the observable events in order, and whether the call raised.
- Observable events are map creation, the warning, `initialize`, a foreign `init_weights`, `update_init_info` and the report.
- The `Sequential`, `ModuleList` and `ModuleDict` containers (lines 129-150) matter only because they fix the order of `children`, which is the order of the `children` sequence.
- Whether `initialize` raises is a parameter of the model: `accept: Dispatch`.

Modules:

- `InitConfig`: `init_cfg` shapes, Python truthiness, and the split into groups.
- `ModuleTree`: the tree, `named_parameters()`, and installing or removing the map.
- `BaseModule`: `init_weights` and `_finalize_init`.
- `InitOrder`: the order of events.
- `TrackingLifecycle`: creating, sharing and removing the map.
- `InitFlags`: what happens to the `_is_init` flags, and when a call raises.
- `Provenance`: what the report says about each parameter.

Two consequences of the code are easy to miss:

- A call on a module that is already initialised logs the warning and returns at line 67 without looking at its children. A second call on an initialised root therefore never initialises children added after the first call. It only creates the map, reports and removes the map (`InitFlags.AlreadyInitialisedIsNoOp`).
- Only the module the call was made on can warn. Initialised children are skipped silently at line 89 (`InitFlags.WarnOnlyAtInitialisedEntry`). There is not one warning per initialised module.

## Model

| member | source | states |
|---|---|---|
| ModuleTree.NewBaseModule | perceptia/modules/base_module.py:25-28 | a new module keeps its config as given, starts not initialised and holds no tracking map |
| InitConfig.SplitItems | perceptia/modules/base_module.py:74-80 | the split raises iff some list element is not a dict, at the first such element; otherwise the two groups together are as long as the list, every pretrained rule has type "Pretrained" or `PretrainedInit`, and no other rule does |
| InitConfig.SplitIsStableFilter | perceptia/modules/base_module.py:75-80 | each group is the list's dicts of that kind, in list order |
| InitConfig.SplitIsExact | perceptia/modules/base_module.py:70-80 | on an all-dict list the split does not raise, and the two groups together hold every dict exactly once (as multisets) |
| InitConfig.SplitClassifies | perceptia/modules/base_module.py:77-80 | a dict of the list is in the pretrained group iff its type is "Pretrained" or `PretrainedInit`, and in the other group iff not |
| InitConfig.SingleDictIsOneElementList | perceptia/modules/base_module.py:71-74 | a single non-empty dict splits exactly like a one-element list holding it; an empty dict is falsy and yields no rule, while `[{}]` yields one other rule |
| ModuleTree.NamedParameters | perceptia/modules/base_module.py:53-54 | `named_parameters()` lists every parameter of the tree exactly once |
| ModuleTree.SetTracking | perceptia/modules/base_module.py:60-61 | installing (or deleting) the map reaches every module of the tree and changes nothing else |
| BaseModule.InitWeights | perceptia/modules/base_module.py:44-102 | a call changes no module's identity, config, parameters or children, only flags; the caller's map keeps all its entries |
| BaseModule.Walk | perceptia/modules/base_module.py:69-99 | the walk on a module returns normally iff it sets that module's `_is_init`; it does not touch the module's map flag |
| BaseModule.VisitChildren | perceptia/modules/base_module.py:87-93 | the children loop returns the same children, in the same order, changed only in their flags |
| BaseModule.Finish | perceptia/modules/base_module.py:101-102 | a top-level call ends with exactly one report of its tree and no module holding the map, and hands the caller's map back untouched; a nested call does neither |
| InitOrder.TraceWithin | perceptia/modules/base_module.py:83-97 | every event of a call concerns a module of the tree it was made on |
| InitOrder.WalkTraceWithin | perceptia/modules/base_module.py:83-97 | a module's own events are applications of its rules; all its other events concern its descendants |
| InitOrder.OtherBeforeSubtreeBeforePretrained | perceptia/modules/base_module.py:83-97 | on a module not yet initialised, its other rules are applied before any event of its subtree and before its pretrained rules, and its pretrained rules after every event of its subtree; by `InitOrder.RecursedChildCallInLoop` this holds for every module the walk recurses into, inside its ancestors' events |
| InitOrder.RulesAppliedOnce | perceptia/modules/base_module.py:82-97 | on a module not yet initialised, a call that returns normally applies its other rules exactly once if there are any and never otherwise, and likewise its pretrained rules; so the ordering above is about applications that happen |
| InitOrder.ChildSegments | perceptia/modules/base_module.py:87-93 | the children loop's events split into one segment per child in order, each about that child's subtree only, empty for a skipped child; a foreign child's segment is its own `init_weights` then its `update_init_info`; a recursed child's segment is exactly the events of its own `init_weights` call followed by its `update_init_info`, which only a child that raised lacks; a loop that returns normally has a segment for every child |
| InitOrder.RecursedChildCallInLoop | perceptia/modules/base_module.py:87-93 | when the children loop returns normally, each recursed child's own call appears in the loop's events as one unbroken block, immediately followed by its `update_init_info` |
| InitOrder.ChildrenInDeclarationOrder | perceptia/modules/base_module.py:87-93 | every event about an earlier child's subtree precedes every event about a later child's subtree |
| InitOrder.SkippedChildUntouched | perceptia/modules/base_module.py:87-90 | a child that is already initialised or has no `init_weights` comes back unchanged, and no event concerns any module of its subtree |
| TrackingLifecycle.NestedCallsNeverTopLevel | perceptia/modules/base_module.py:46-61 | a call on a tree that holds the map everywhere, and every call it makes, creates no map, reports nothing and leaves the map everywhere |
| TrackingLifecycle.TopLevelLifecycle | perceptia/modules/base_module.py:49-126 | a top-level call creates the map first; when it returns normally, including on an initialised module, it reports once, last, and no module holds the map afterwards; when it raises, nothing is reported and the map stays on every module |
| TrackingLifecycle.CreatesMapIffAbsent | perceptia/modules/base_module.py:49-51 | a call creates a map for its module iff that module holds none on entry |
| TrackingLifecycle.RetryAfterFailureNeverReports | perceptia/modules/base_module.py:99-102 | after a top-level call raises, a new call on the resulting tree is never top-level: no map is created or reported and the map stays installed |
| InitFlags.AlreadyInitialisedIsNoOp | perceptia/modules/base_module.py:63-67 | a call on an initialised module returns normally, warns, applies no rule, visits no child and changes no flag anywhere in the tree |
| InitFlags.WarnOnlyAtInitialisedEntry | perceptia/modules/base_module.py:63-64 | the only warning a call can log is about the module it was made on, and only when that module was already initialised |
| InitFlags.FlagsOnlyRise | perceptia/modules/base_module.py:99 | on every path, every module initialised before a call is initialised after it |
| InitFlags.CompletesReachedModules | perceptia/modules/base_module.py:87-99 | a call on a module not yet initialised that returns normally initialises that module and, recursively, every BaseModule child it recursed into |
| InitFlags.FailureStopsAtFailingChild | perceptia/modules/base_module.py:87-93 | when the children loop raises, the child that raised is an uninitialised BaseModule left uninitialised, every earlier recursed child was completed, and every later child is returned exactly as it was |
| InitFlags.FailureIsExplained | perceptia/modules/base_module.py:70-97 | a call raises only with an error that names a BaseModule of its tree and either a non-empty group of that module's rules (its other rules or its pretrained rules) that `initialize` rejected, or the index of the first non-dict element of that module's config list, in which case the tree's configs are not all well-formed |
| InitFlags.RejectionRaises | perceptia/modules/base_module.py:70-99 | on a module not yet initialised, a config with a non-dict element raises at that element; a rejected non-empty group of other rules raises; a raising child loop makes the call raise with its error; after the loop, a rejected non-empty group of pretrained rules raises; in every other case the call returns normally |
| InitFlags.RejectionStops | perceptia/modules/base_module.py:70-99 | a raise ends the call where it happens: after a bad config or rejected other rules the tree is as on entry and no event follows the map's creation; after a raise in the children loop or at the pretrained rules the children keep their progress and no event follows the failing one, in particular no pretrained rule is applied |
| InitFlags.RaisingChildRaises | perceptia/modules/base_module.py:87-90 | a recursed child whose `init_weights` raises makes the children loop raise with the same error |
| InitFlags.NoFailureWhenRulesAccepted | perceptia/modules/base_module.py:74-97 | with all-dict configs and an `initialize` that never raises, a call always returns normally |
| InitFlags.FreshTreeFullyInitialised | perceptia/modules/base_module.py:25-102 | a top-level call on a module just built by `__init__`, whose configs are well-formed and whose rules are all accepted, returns normally, initialises every BaseModule it reaches, leaves no map anywhere and ends with the report of that module |
| Provenance.InitWeightsFrame | perceptia/modules/base_module.py:87-93 | a call changes the map only at the parameters of its own subtree; a top-level call leaves the caller's map exactly as it was |
| Provenance.ChildrenAttribution | perceptia/modules/base_module.py:87-93 | after the children loop returns normally, each entry is attributed to the last recursed child whose subtree holds that parameter, and is otherwise unchanged |
| Provenance.ReportLineCount | perceptia/modules/base_module.py:112-114 | the report has one line per distinct parameter of the tree |
| Provenance.TopLevelReport | perceptia/modules/base_module.py:104-122 | a top-level call that returns normally ends with a report listing `named_parameters()` in order, each with its name, its shape and its attribution: the last recursed direct child holding it, or else "unchanged" by the module the call was made on |

## Left out

- Logging: the log handlers, the choice between a file handler and the logger, the report's header line and the debug line (lines 72 and 107-122). The report is the `Finalize` event's list of records, and the warning is a `Warn` event.
- Tensor values: the `tmp_mean_value` snapshot (line 57) and the floating-point means. Parameters are identities with names and shapes only.
- The bodies of `initialize` and `PretrainedInit` are not part of this model. Whether `initialize` raises is the `accept` parameter. Its effect on tensor values is not modelled, and neither is its effect on provenance.
- BaseModule.UpdateInfo: the body of `update_init_info` is not part of this model. The model rewrites the entry of every parameter of the target's subtree. The usual implementation rewrites only entries whose mean changed since the snapshot, which needs the tensor values left out above. So `Provenance.ChildrenAttribution` and `Provenance.TopLevelReport` describe this over-approximation.
- `unwrap_model` (line 88) is the identity. A child that is not a BaseModule but has `init_weights` runs its own code, which is opaque here. The model records its call and does not descend into it.
- A module of another library with its own `init_weights` and a truthy `is_init` attribute is skipped at line 89 like an initialised BaseModule; the model gives such a module the kind `Plain`.
- `is_init` (lines 30-36) is `_is_init` itself. `__repr__` (lines 38-42) has no effect on initialisation.
- Modules shared by two parents (a DAG): the tree has one owner per module. A parameter shared by two modules is allowed, and `named_parameters()` lists it once.
- perceptia/configs/arguments.py, train.py and perceptia/datasets/coco.py hold configuration glue, an entry point and a dataset wrapper. They play no part in initialisation.
- Exceptions other than the two modelled ones: a failing `assert isinstance(cfg, dict)` and a raising `initialize`.

=== FILE: base_module.dfy ===
/** `BaseModule.init_weights` and `_finalize_init`
    (perceptia/modules/base_module.py, lines 44-126): one depth-first walk
    that applies each module's rules, recurses into children that are not yet
    initialised, records per-parameter provenance in a call-scoped tracking
    map, and, at the top-level call only, reports that map and removes it. */
module BaseModule {
  import opened InitConfig
  import opened ModuleTree

  /** The `init_info` text of a tracking-map entry. */
  datatype Info =
    | Unchanged(topCls: string)  // "The value is unchanged ... `init_weights` of <topCls>"
    | UserDefined(cls: string)   // "Initialized by user-defined init_weights in <cls>"

  /** The tracking map: provenance per parameter identity. */
  type Prov = map<ParamId, Info>

  /** One line of the provenance report: `<name> - <shape>:` then the info. */
  datatype Record = Record(name: string, shape: seq<nat>, info: Info)

  /** What a call does that can be observed from outside the tree value. */
  datatype Event =
    | CreateMap(node: NodeId)                      // lines 49-61
    | Warn(node: NodeId)                           // line 64
    | Apply(node: NodeId, cfgs: seq<CfgDict>)      // `initialize(self, cfgs)`, lines 84 and 97
    | ForeignInit(node: NodeId)                    // a foreign child's own `init_weights()`
    | ChildInfo(node: NodeId)                      // `update_init_info(target, ...)`, lines 91-93
    | Finalize(node: NodeId, records: seq<Record>) // `_finalize_init`, lines 104-126

  /** The two ways a call can raise. */
  datatype Error =
    | CfgNotADict(node: NodeId, index: nat)              // `assert isinstance(cfg, dict)` fails
    | DispatchFailed(node: NodeId, cfgs: seq<CfgDict>)   // `initialize` raises

  datatype Outcome = Done | Failed(error: Error)

  /** Whether `initialize(module, cfgs)` returns normally; its body is not
      part of this model, so the caller supplies the answer. */
  type Dispatch = (NodeId, seq<CfgDict>) -> bool

  /** The state after a call: the tree, the tracking-map contents the caller
      continues with, the events in order, and whether the call raised. */
  datatype Run = Run(node: Node, prov: Prov, trace: seq<Event>, outcome: Outcome)

  datatype ChildrenRun = ChildrenRun(children: seq<Node>, prov: Prov, trace: seq<Event>, outcome: Outcome)

  function EventNode(e: Event): NodeId {
    e.node
  }

  /** Lines 53-56: every parameter of the tree starts as "unchanged by the
      `init_weights` of" the module the top-level call was made on. */
  function Defaults(n: Node): Prov {
    map pid | pid in ParamIds(n) :: Unchanged(n.cls)
  }

  /** `update_init_info(target, ...)`: the target's parameters are now
      attributed to the target's own `init_weights`. */
  function UpdateInfo(p: Prov, target: Node): Prov {
    p + map pid | pid in ParamIds(target) :: UserDefined(target.cls)
  }

  /** Lines 112-114 and 120-122: one record per parameter of
      `named_parameters()`, in that order, with its current info. */
  function Report(n: Node, p: Prov): seq<Record>
    requires ParamIds(n) <= p.Keys
  {
    var ps := NamedParameters(n);
    seq(|ps|, k requires 0 <= k < |ps| => Record(ps[k].name, ps[k].param.shape, p[ps[k].param.id]))
  }

  /** Lines 101-102 and 65-66: a top-level call reports and tears the map
      down; any other call leaves both alone. */
  function Finish(top: bool, n: Node, callerProv: Prov, p: Prov, trace: seq<Event>): (r: Run)
    requires top ==> ParamIds(n) <= p.Keys
    ensures r.outcome == Done && Erase(r.node) == Erase(n)
    ensures top ==> EveryTracked(r.node, false) && r.prov == callerProv
    ensures top ==> r.trace == trace + [Finalize(n.id, Report(n, p))]
    ensures !top ==> r == Run(n, p, trace, Done)
  {
    if top then Run(SetTracking(n, false), callerProv, trace + [Finalize(n.id, Report(n, p))], Done)
    else Run(n, p, trace, Done)
  }

  /** `self.init_weights()` on a BaseModule. `prov` is the tracking map the
      module holds when it already has one. */
  function InitWeights(n: Node, prov: Prov, accept: Dispatch): (r: Run)
    requires n.kind.Base?
    ensures Erase(r.node) == Erase(n)
    ensures prov.Keys <= r.prov.Keys
    decreases Size(n), 1
  {
    var top := !n.tracked;
    var m := if top then SetTracking(n, true) else n;
    var p := if top then Defaults(n) else prov;
    var created := if top then [CreateMap(n.id)] else [];
    EraseInvariants(m, n);
    if m.kind.isInit then
      Finish(top, m, prov, p, created + [Warn(n.id)])
    else
      var w := Walk(m, p, accept);
      EraseInvariants(w.node, m);
      if w.outcome.Failed? then Run(w.node, if top then prov else w.prov, created + w.trace, w.outcome)
      else Finish(top, w.node, prov, w.prov, created + w.trace)
  }

  /** Lines 69-99 on a module that is not yet initialised: split the rules,
      apply the other rules, recurse, apply the pretrained rules, set the flag. */
  function Walk(m: Node, p: Prov, accept: Dispatch): (r: Run)
    requires m.kind.Base? && !m.kind.isInit
    ensures Erase(r.node) == Erase(m) && r.node.tracked == m.tracked
    ensures p.Keys <= r.prov.Keys
    ensures r.outcome.Done? <==> r.node.kind.isInit
    decreases Size(m), 0
  {
    match SplitCfg(m.kind.cfg)
    case NotADict(i) => Run(m, p, [], Failed(CfgNotADict(m.id, i)))
    case Split(other, pretrained) =>
      if |other| > 0 && !accept(m.id, other) then
        Run(m, p, [], Failed(DispatchFailed(m.id, other)))
      else
        var t1 := if |other| > 0 then [Apply(m.id, other)] else [];
        var c := VisitChildren(m.children, p, accept);
        var m2 := m.(children := c.children);
        if c.outcome.Failed? then
          Run(m2, c.prov, t1 + c.trace, c.outcome)
        else if |pretrained| > 0 && !accept(m.id, pretrained) then
          Run(m2, c.prov, t1 + c.trace, Failed(DispatchFailed(m.id, pretrained)))
        else
          var t3 := if |pretrained| > 0 then [Apply(m.id, pretrained)] else [];
          Run(m2.(kind := m.kind.(isInit := true)), c.prov, t1 + c.trace + t3, Done)
  }

  /** Lines 87-93: children in order; a BaseModule child not yet initialised
      is recursed into, a foreign child runs its own `init_weights`, and each
      of those then gets `update_init_info`; every other child is skipped. */
  function VisitChildren(cs: seq<Node>, p: Prov, accept: Dispatch): (r: ChildrenRun)
    ensures EraseSeq(r.children) == EraseSeq(cs)
    ensures |r.children| == |cs|
    ensures p.Keys <= r.prov.Keys
    decreases SizeSeq(cs), 2
  {
    if |cs| == 0 then ChildrenRun([], p, [], Done)
    else
      var c := cs[0];
      if c.kind.Base? && !c.kind.isInit then
        var w := InitWeights(c, p, accept);
        if w.outcome.Failed? then
          ChildrenRun([w.node] + cs[1..], w.prov, w.trace, w.outcome)
        else
          var rest := VisitChildren(cs[1..], UpdateInfo(w.prov, w.node), accept);
          ChildrenRun([w.node] + rest.children, rest.prov, w.trace + [ChildInfo(c.id)] + rest.trace, rest.outcome)
      else if c.kind.Foreign? then
        var rest := VisitChildren(cs[1..], UpdateInfo(p, c), accept);
        ChildrenRun([c] + rest.children, rest.prov, [ForeignInit(c.id), ChildInfo(c.id)] + rest.trace, rest.outcome)
      else
        var rest := VisitChildren(cs[1..], p, accept);
        ChildrenRun([c] + rest.children, rest.prov, rest.trace, rest.outcome)
  }
}

=== FILE: init_config.dfy ===
/** The `init_cfg` of a module and its split into "pretrained" rules and all
    other rules (perceptia/modules/base_module.py, lines 70-80). */
module InitConfig {

  /** The value stored under a config dict's "type" key: a string, the
      `PretrainedInit` class object, or some other initializer class. */
  datatype TypeVal = Str(s: string) | PretrainedInitClass | OtherClass(name: string)

  /** The "type" entry of a config dict; `NoType` when the key is missing,
      which is what `cfg.get("type")` reports as `None`. */
  datatype TypeEntry = NoType | HasType(value: TypeVal)

  /** A config dict. Only its "type" entry matters to the engine; the other
      keys are opaque and only counted, because an empty dict is falsy. */
  datatype CfgDict = CfgDict(typ: TypeEntry, otherKeys: nat)

  /** An element of a list-valued `init_cfg`: a dict, or anything else. */
  datatype CfgItem = Dict(dict: CfgDict) | NotDict

  /** The three shapes `init_cfg` can take: `None`, one dict, or a list. */
  datatype InitCfg = NoCfg | OneDict(dict: CfgDict) | CfgList(items: seq<CfgItem>)

  /** A rule is "pretrained" iff its type is the string "Pretrained" or the
      `PretrainedInit` class itself. */
  predicate IsPretrained(d: CfgDict) {
    d.typ == HasType(Str("Pretrained")) || d.typ == HasType(PretrainedInitClass)
  }

  predicate IsEmptyDict(d: CfgDict) {
    d.typ == NoType && d.otherKeys == 0
  }

  /** Python truthiness of `init_cfg`: `None`, `{}` and `[]` are false. */
  predicate Truthy(c: InitCfg) {
    match c
    case NoCfg => false
    case OneDict(d) => !IsEmptyDict(d)
    case CfgList(items) => |items| > 0
  }

  /** The list the split loop walks: the list itself, or one dict wrapped
      into a one-element list. */
  function AsList(c: InitCfg): seq<CfgItem> {
    match c
    case NoCfg => []
    case OneDict(d) => [Dict(d)]
    case CfgList(items) => items
  }

  predicate AllDicts(items: seq<CfgItem>) {
    forall k :: 0 <= k < |items| ==> items[k].Dict?
  }

  /** Result of the split: both groups in order, or the position of the
      first element that fails `assert isinstance(cfg, dict)`. */
  datatype SplitResult = Split(other: seq<CfgDict>, pretrained: seq<CfgDict>) | NotADict(index: nat)

  /** The loop of lines 75-80: each dict goes to the pretrained group or to
      the other group, in list order; a non-dict element stops the split. */
  function SplitItems(items: seq<CfgItem>): (r: SplitResult)
    ensures r.NotADict? <==> !AllDicts(items)
    ensures r.NotADict? ==>
              && r.index < |items| && items[r.index].NotDict?
              && forall k :: 0 <= k < r.index ==> items[k].Dict?
    ensures r.Split? ==> |r.other| + |r.pretrained| == |items|
    ensures r.Split? ==> forall d :: d in r.other ==> !IsPretrained(d)
    ensures r.Split? ==> forall d :: d in r.pretrained ==> IsPretrained(d)
  {
    if |items| == 0 then Split([], [])
    else
      match items[0]
      case NotDict => NotADict(0)
      case Dict(d) =>
        match SplitItems(items[1..])
        case NotADict(i) => NotADict(i + 1)
        case Split(o, p) =>
          if IsPretrained(d) then Split(o, [d] + p) else Split([d] + o, p)
  }

  /** Lines 70-80 as a whole: a falsy `init_cfg` yields two empty groups. */
  function SplitCfg(c: InitCfg): SplitResult {
    if Truthy(c) then SplitItems(AsList(c)) else Split([], [])
  }

  /** Reference definitions: the dicts of an all-dict list, and the stable
      filter of a list of dicts by whether they are pretrained. */
  function Dicts(items: seq<CfgItem>): (ds: seq<CfgDict>)
    requires AllDicts(items)
    ensures |ds| == |items|
    ensures forall k :: 0 <= k < |items| ==> ds[k] == items[k].dict
  {
    if |items| == 0 then [] else [items[0].dict] + Dicts(items[1..])
  }

  function Keep(ds: seq<CfgDict>, pretrained: bool): seq<CfgDict> {
    if |ds| == 0 then []
    else if IsPretrained(ds[0]) == pretrained then [ds[0]] + Keep(ds[1..], pretrained)
    else Keep(ds[1..], pretrained)
  }

  /** The split is the stable filter: each group keeps its dicts in list order. */
  lemma {:induction false} SplitIsStableFilter(items: seq<CfgItem>)
    requires AllDicts(items)
    ensures SplitItems(items) == Split(Keep(Dicts(items), false), Keep(Dicts(items), true))
  {
    if |items| > 0 {
      assert AllDicts(items[1..]);
      SplitIsStableFilter(items[1..]);
      assert Dicts(items)[1..] == Dicts(items[1..]);
    }
  }

  /** The split is exact: together the groups hold every dict exactly once. */
  lemma {:induction false} KeepPartitions(ds: seq<CfgDict>)
    ensures multiset(Keep(ds, false)) + multiset(Keep(ds, true)) == multiset(ds)
  {
    if |ds| > 0 {
      KeepPartitions(ds[1..]);
      assert ds == [ds[0]] + ds[1..];
    }
  }

  /** Together the groups hold every dict of the list exactly once. */
  lemma {:induction false} SplitIsExact(items: seq<CfgItem>)
    requires AllDicts(items)
    ensures SplitItems(items).Split?
    ensures multiset(SplitItems(items).other) + multiset(SplitItems(items).pretrained)
            == multiset(Dicts(items))
  {
    SplitIsStableFilter(items);
    KeepPartitions(Dicts(items));
  }

  /** Every dict of the list lands in the pretrained group exactly when its
      type says "Pretrained", and in the other group otherwise. */
  lemma {:induction false} SplitClassifies(items: seq<CfgItem>, d: CfgDict)
    requires AllDicts(items) && d in Dicts(items)
    ensures d in SplitItems(items).pretrained <==> IsPretrained(d)
    ensures d in SplitItems(items).other <==> !IsPretrained(d)
  {
    SplitIsExact(items);
    var r := SplitItems(items);
    assert d in multiset(Dicts(items));
    if IsPretrained(d) {
      assert d !in r.other;
      assert d in multiset(r.pretrained);
    } else {
      assert d !in r.pretrained;
      assert d in multiset(r.other);
    }
  }

  /** A single dict is treated as a one-element list, except that an empty
      dict is falsy and so contributes no rule at all, whereas `[{}]` is a
      truthy list whose empty dict is an "other" rule. */
  lemma SingleDictIsOneElementList(d: CfgDict)
    ensures !IsEmptyDict(d) ==> SplitCfg(OneDict(d)) == SplitCfg(CfgList([Dict(d)]))
    ensures SplitCfg(OneDict(d)) == (if IsEmptyDict(d) then Split([], [])
                                     else if IsPretrained(d) then Split([], [d])
                                     else Split([d], []))
    ensures IsEmptyDict(d) ==> SplitCfg(CfgList([Dict(d)])) == Split([d], [])
  {
    assert [Dict(d)][1..] == [];
  }
}

=== FILE: init_flags.dfy ===
/** What `init_weights` does to the `_is_init` flags
    (perceptia/modules/base_module.py, lines 28, 63-67, 87-90, 99): it only
    ever sets them, sets them on every module it recursed into when it
    returns normally, does nothing to an initialised module but warn, and
    stops at the first module whose rules raise. */
module InitFlags {
  import opened InitConfig
  import opened ModuleTree
  import opened BaseModule
  import InitOrder

  /** Same shape, and every module initialised in `a` is initialised in `b`. */
  predicate Grows(a: Node, b: Node) {
    && (IsInit(a) ==> IsInit(b))
    && |a.children| == |b.children|
    && forall k :: 0 <= k < |a.children| ==> Grows(a.children[k], b.children[k])
  }

  /** `b` is initialised, and so is, recursively, every child of `b` whose
      counterpart in `a` was a BaseModule not yet initialised. */
  predicate Completed(a: Node, b: Node) {
    && IsInit(b)
    && |a.children| == |b.children|
    && forall k :: 0 <= k < |a.children| && a.children[k].kind.Base? && !a.children[k].kind.isInit ==>
                     Completed(a.children[k], b.children[k])
  }

  lemma {:induction false} GrowsRefl(a: Node)
    ensures Grows(a, a)
    decreases a
  {
    forall k | 0 <= k < |a.children| ensures Grows(a.children[k], a.children[k]) {
      GrowsRefl(a.children[k]);
    }
  }

  lemma {:induction false} GrowsTrans(a: Node, b: Node, c: Node)
    requires Grows(a, b) && Grows(b, c)
    ensures Grows(a, c)
    decreases a
  {
    forall k | 0 <= k < |a.children| ensures Grows(a.children[k], c.children[k]) {
      GrowsTrans(a.children[k], b.children[k], c.children[k]);
    }
  }

  /** Installing or removing the map leaves every flag as it was. */
  lemma {:induction false} GrowsTracking(a: Node, t: bool)
    ensures Grows(a, SetTracking(a, t)) && Grows(SetTracking(a, t), a)
    decreases a
  {
    forall k | 0 <= k < |a.children|
      ensures Grows(a.children[k], SetTracking(a, t).children[k])
      ensures Grows(SetTracking(a, t).children[k], a.children[k])
    {
      SetTrackingSeqAt(a.children, t, k);
      GrowsTracking(a.children[k], t);
    }
  }

  lemma {:induction false} CompletedTracking(a: Node, b: Node, t1: bool, t2: bool)
    requires Completed(SetTracking(a, t1), b)
    ensures Completed(a, SetTracking(b, t2))
    decreases a
  {
    forall k | 0 <= k < |a.children| && a.children[k].kind.Base? && !a.children[k].kind.isInit
      ensures Completed(a.children[k], SetTracking(b, t2).children[k])
    {
      SetTrackingSeqAt(a.children, t1, k);
      SetTrackingSeqAt(b.children, t2, k);
      CompletedTracking(a.children[k], b.children[k], t1, t2);
    }
  }

  /** Guard, lines 63-67: on a module already initialised, a call applies no
      rule anywhere, recurses nowhere, and changes no flag; the only changes
      are the warning and, when top-level, the report and the map's round
      trip. In particular, children added after the first call and not yet
      initialised stay that way. */
  lemma AlreadyInitialisedIsNoOp(n: Node, prov: Prov, accept: Dispatch)
    requires n.kind.Base? && n.kind.isInit
    ensures var r := InitWeights(n, prov, accept);
              && r.outcome == Done
              && SetTracking(r.node, false) == SetTracking(n, false)
              && Warn(n.id) in r.trace
              && forall e :: e in r.trace ==> !e.Apply? && !e.ForeignInit? && !e.ChildInfo?
  {
    SetTrackingTwice(n, true, false);
    SetTrackingTwice(n, false, false);
  }

  /** `init_weights` only ever assigns `True` to a flag: every module
      initialised before a call is initialised after it, on every path. */
  lemma {:induction false} FlagsOnlyRise(n: Node, prov: Prov, accept: Dispatch)
    requires n.kind.Base?
    ensures Grows(n, InitWeights(n, prov, accept).node)
    decreases Size(n), 1
  {
    var m := if n.tracked then n else SetTracking(n, true);
    var p := if n.tracked then prov else Defaults(n);
    var r := InitWeights(n, prov, accept);
    GrowsTracking(n, true);
    if m.kind.isInit {
      GrowsTracking(m, false);
      if n.tracked { GrowsRefl(n); } else { GrowsTrans(n, m, r.node); }
    } else {
      WalkFlagsRise(m, p, accept);
      var w := Walk(m, p, accept);
      GrowsTracking(w.node, false);
      if n.tracked {
        assert r.node == w.node;
      } else {
        GrowsTrans(n, m, w.node);
        if w.outcome.Done? { GrowsTrans(n, w.node, r.node); }
      }
    }
  }

  lemma {:induction false} WalkFlagsRise(m: Node, p: Prov, accept: Dispatch)
    requires m.kind.Base? && !m.kind.isInit
    ensures Grows(m, Walk(m, p, accept).node)
    decreases Size(m), 0
  {
    GrowsRefl(m);
    match SplitCfg(m.kind.cfg)
    case NotADict(_) =>
    case Split(other, pretrained) =>
      if !(|other| > 0 && !accept(m.id, other)) {
        ChildrenFlagsRise(m.children, p, accept);
      }
  }

  lemma {:induction false} ChildrenFlagsRise(cs: seq<Node>, p: Prov, accept: Dispatch)
    ensures var r := VisitChildren(cs, p, accept);
              forall k :: 0 <= k < |cs| ==> Grows(cs[k], r.children[k])
    decreases SizeSeq(cs), 2
  {
    if |cs| > 0 {
      var r := VisitChildren(cs, p, accept);
      var head, restPrev, stop := InitOrder.ChildStep(cs, p, accept);
      if cs[0].kind.Base? && !cs[0].kind.isInit {
        FlagsOnlyRise(cs[0], p, accept);
      } else {
        GrowsRefl(cs[0]);
      }
      forall k | 1 <= k < |cs| ensures Grows(cs[k], r.children[k]) {
        assert r.children[k] == r.children[1..][k - 1] && cs[k] == cs[1..][k - 1];
        if stop {
          GrowsRefl(cs[k]);
        } else {
          ChildrenFlagsRise(cs[1..], restPrev, accept);
        }
      }
    }
  }

  /** Completion, lines 87-90 and 99: a call on a module not yet initialised
      that returns normally leaves that module initialised, and every module
      it recursed into as well. */
  lemma {:induction false} CompletesReachedModules(n: Node, prov: Prov, accept: Dispatch)
    requires n.kind.Base? && !n.kind.isInit
    ensures var r := InitWeights(n, prov, accept);
              r.outcome.Done? ==> Completed(n, r.node)
    decreases Size(n), 1
  {
    var m := if n.tracked then n else SetTracking(n, true);
    var p := if n.tracked then prov else Defaults(n);
    var w := Walk(m, p, accept);
    if w.outcome.Done? {
      WalkCompletes(m, p, accept);
      if !n.tracked {
        CompletedTracking(n, w.node, true, false);
      }
    }
  }

  lemma {:induction false} WalkCompletes(m: Node, p: Prov, accept: Dispatch)
    requires m.kind.Base? && !m.kind.isInit
    ensures var w := Walk(m, p, accept);
              w.outcome.Done? ==> Completed(m, w.node)
    decreases Size(m), 0
  {
    match SplitCfg(m.kind.cfg)
    case NotADict(_) =>
    case Split(other, pretrained) =>
      if !(|other| > 0 && !accept(m.id, other)) {
        ChildrenComplete(m.children, p, accept);
      }
  }

  lemma {:induction false} ChildrenComplete(cs: seq<Node>, p: Prov, accept: Dispatch)
    ensures var r := VisitChildren(cs, p, accept);
              r.outcome.Done? ==>
                forall k :: 0 <= k < |cs| && cs[k].kind.Base? && !cs[k].kind.isInit ==>
                  Completed(cs[k], r.children[k])
    decreases SizeSeq(cs), 2
  {
    if |cs| > 0 {
      var r := VisitChildren(cs, p, accept);
      var head, restPrev, stop := InitOrder.ChildStep(cs, p, accept);
      if r.outcome.Done? {
        assert !stop;
        if cs[0].kind.Base? && !cs[0].kind.isInit {
          CompletesReachedModules(cs[0], p, accept);
        }
        ChildrenComplete(cs[1..], restPrev, accept);
        forall k | 1 <= k < |cs| && cs[k].kind.Base? && !cs[k].kind.isInit
          ensures Completed(cs[k], r.children[k])
        {
          assert r.children[k] == r.children[1..][k - 1] && cs[k] == cs[1..][k - 1];
        }
      }
    }
  }

  /** Lines 84, 90 and 97 raise through `init_weights`: when the children
      loop raises, the child that raised is left uninitialised, every
      BaseModule child before it was completed, and every child after it is
      returned exactly as it was. */
  lemma {:induction false} FailureStopsAtFailingChild(cs: seq<Node>, p: Prov, accept: Dispatch)
    ensures var r := VisitChildren(cs, p, accept);
              r.outcome.Failed? ==>
                exists k :: && 0 <= k < |cs| && cs[k].kind.Base? && !cs[k].kind.isInit
                            && !IsInit(r.children[k])
                            && r.children[k + 1..] == cs[k + 1..]
                            && forall j :: 0 <= j < k && cs[j].kind.Base? && !cs[j].kind.isInit ==>
                                             Completed(cs[j], r.children[j])
    decreases cs
  {
    if |cs| > 0 {
      var r := VisitChildren(cs, p, accept);
      var head, restPrev, stop := InitOrder.ChildStep(cs, p, accept);
      if r.outcome.Failed? {
        if stop {
          var w := InitWeights(cs[0], p, accept);
          InitWeightsFailureUninitialised(cs[0], p, accept);
          assert r.children[1..] == cs[1..];
        } else {
          FailureStopsAtFailingChild(cs[1..], restPrev, accept);
          var rest := VisitChildren(cs[1..], restPrev, accept);
          var k :| && 0 <= k < |cs[1..]| && cs[1..][k].kind.Base? && !cs[1..][k].kind.isInit
                   && !IsInit(rest.children[k])
                   && rest.children[k + 1..] == cs[1..][k + 1..]
                   && forall j :: 0 <= j < k && cs[1..][j].kind.Base? && !cs[1..][j].kind.isInit ==>
                                    Completed(cs[1..][j], rest.children[j]);
          if cs[0].kind.Base? && !cs[0].kind.isInit {
            CompletesReachedModules(cs[0], p, accept);
          }
          assert r.children[k + 1] == rest.children[k];
          assert r.children[k + 2..] == rest.children[k + 1..];
          forall j | 0 <= j < k + 1 && cs[j].kind.Base? && !cs[j].kind.isInit
            ensures Completed(cs[j], r.children[j])
          {
            if j > 0 {
              assert cs[j] == cs[1..][j - 1] && r.children[j] == rest.children[j - 1];
            }
          }
        }
      }
    }
  }

  /** A call that raises never marks the module it was made on. */
  lemma InitWeightsFailureUninitialised(n: Node, prov: Prov, accept: Dispatch)
    requires n.kind.Base? && !n.kind.isInit
    ensures var r := InitWeights(n, prov, accept);
              r.outcome.Failed? ==> !IsInit(r.node)
  {
  }

  /** `initialize` returns normally on every module and every rule list. */
  ghost predicate AcceptsAll(accept: Dispatch) {
    forall id: NodeId, cfgs: seq<CfgDict> :: accept(id, cfgs)
  }

  /** `id` is a BaseModule of the tree whose config splits without error and
      has `cfgs` as its group of other rules or of pretrained rules. */
  predicate HasGroup(n: Node, id: NodeId, cfgs: seq<CfgDict>) {
    || (&& n.id == id && n.kind.Base? && SplitCfg(n.kind.cfg).Split?
        && (cfgs == SplitCfg(n.kind.cfg).other || cfgs == SplitCfg(n.kind.cfg).pretrained))
    || exists k :: 0 <= k < |n.children| && HasGroup(n.children[k], id, cfgs)
  }

  /** `id` is a BaseModule of the tree whose config has, at index `i`, its
      first list element that is not a dict. */
  predicate HasBadElement(n: Node, id: NodeId, i: nat) {
    || (n.id == id && n.kind.Base? && SplitCfg(n.kind.cfg) == NotADict(i))
    || exists k :: 0 <= k < |n.children| && HasBadElement(n.children[k], id, i)
  }

  /** An error is explained by a tree when `initialize` rejected a non-empty
      group of rules of the module it names, or when the module it names has
      a config whose first non-dict element is at the index it names. */
  predicate Explained(e: Error, n: Node, accept: Dispatch) {
    match e
    case DispatchFailed(id, cfgs) => |cfgs| > 0 && !accept(id, cfgs) && HasGroup(n, id, cfgs)
    case CfgNotADict(id, i) => HasBadElement(n, id, i)
  }

  predicate ExplainedSeq(e: Error, cs: seq<Node>, accept: Dispatch) {
    exists k :: 0 <= k < |cs| && Explained(e, cs[k], accept)
  }

  lemma {:induction false} HasGroupErase(a: Node, b: Node, id: NodeId, cfgs: seq<CfgDict>)
    requires Erase(a) == Erase(b) && HasGroup(a, id, cfgs)
    ensures HasGroup(b, id, cfgs)
    decreases a
  {
    EraseInvariantsSeq(a.children, b.children);
    if !(&& a.id == id && a.kind.Base? && SplitCfg(a.kind.cfg).Split?
         && (cfgs == SplitCfg(a.kind.cfg).other || cfgs == SplitCfg(a.kind.cfg).pretrained)) {
      var k :| 0 <= k < |a.children| && HasGroup(a.children[k], id, cfgs);
      HasGroupErase(a.children[k], b.children[k], id, cfgs);
    }
  }

  lemma {:induction false} HasBadElementErase(a: Node, b: Node, id: NodeId, i: nat)
    requires Erase(a) == Erase(b) && HasBadElement(a, id, i)
    ensures HasBadElement(b, id, i)
    decreases a
  {
    EraseInvariantsSeq(a.children, b.children);
    if !(a.id == id && a.kind.Base? && SplitCfg(a.kind.cfg) == NotADict(i)) {
      var k :| 0 <= k < |a.children| && HasBadElement(a.children[k], id, i);
      HasBadElementErase(a.children[k], b.children[k], id, i);
    }
  }

  /** A module holding a group of rules belongs to the tree. */
  lemma {:induction false} HasGroupIn(n: Node, id: NodeId, cfgs: seq<CfgDict>)
    requires HasGroup(n, id, cfgs)
    ensures id in Ids(n)
    decreases n
  {
    if n.id != id {
      var k :| 0 <= k < |n.children| && HasGroup(n.children[k], id, cfgs);
      HasGroupIn(n.children[k], id, cfgs);
      IdsSeqMember(n.children, k);
    }
  }

  /** A module with a non-dict element belongs to the tree, and makes the
      tree's configs not well-formed. */
  lemma {:induction false} HasBadElementIn(n: Node, id: NodeId, i: nat)
    requires HasBadElement(n, id, i)
    ensures id in Ids(n) && !RulesWellFormed(n)
    decreases n
  {
    if !(n.id == id && n.kind.Base? && SplitCfg(n.kind.cfg) == NotADict(i)) {
      var k :| 0 <= k < |n.children| && HasBadElement(n.children[k], id, i);
      HasBadElementIn(n.children[k], id, i);
      IdsSeqMember(n.children, k);
    }
  }

  /** Lines 75-76, 84 and 97 are the only places a call raises: a failing
      call names a module of its tree and either a group of that module's
      rules that `initialize` rejected, or the index of the first non-dict
      element of that module's config. */
  lemma {:induction false} FailureIsExplained(n: Node, prov: Prov, accept: Dispatch)
    requires n.kind.Base?
    ensures var r := InitWeights(n, prov, accept);
              r.outcome.Failed? ==>
                && Explained(r.outcome.error, n, accept)
                && r.outcome.error.node in Ids(n)
                && (r.outcome.error.CfgNotADict? ==> !RulesWellFormed(n))
    decreases Size(n), 1
  {
    var m := if n.tracked then n else SetTracking(n, true);
    var p := if n.tracked then prov else Defaults(n);
    if !m.kind.isInit {
      EraseInvariants(m, n);
      WalkFailureIsExplained(m, p, accept);
      var w := Walk(m, p, accept);
      if w.outcome.Failed? {
        match w.outcome.error
        case DispatchFailed(id, cfgs) =>
          HasGroupErase(m, n, id, cfgs);
          HasGroupIn(n, id, cfgs);
        case CfgNotADict(id, i) =>
          HasBadElementErase(m, n, id, i);
          HasBadElementIn(n, id, i);
      }
    }
  }

  lemma {:induction false} WalkFailureIsExplained(m: Node, p: Prov, accept: Dispatch)
    requires m.kind.Base? && !m.kind.isInit
    ensures var r := Walk(m, p, accept);
              r.outcome.Failed? ==> Explained(r.outcome.error, m, accept)
    decreases Size(m), 0
  {
    match SplitCfg(m.kind.cfg)
    case NotADict(_) =>
    case Split(other, pretrained) =>
      if !(|other| > 0 && !accept(m.id, other)) {
        ChildrenFailureIsExplained(m.children, p, accept);
        var c := VisitChildren(m.children, p, accept);
        if c.outcome.Failed? {
          var k :| 0 <= k < |m.children| && Explained(c.outcome.error, m.children[k], accept);
          match c.outcome.error
          case DispatchFailed(id, cfgs) =>
            assert HasGroup(m.children[k], id, cfgs);
          case CfgNotADict(id, i) =>
            assert HasBadElement(m.children[k], id, i);
        }
      }
  }

  lemma {:induction false} ChildrenFailureIsExplained(cs: seq<Node>, p: Prov, accept: Dispatch)
    ensures var r := VisitChildren(cs, p, accept);
              r.outcome.Failed? ==> ExplainedSeq(r.outcome.error, cs, accept)
    decreases SizeSeq(cs), 2
  {
    if |cs| > 0 {
      var head, restPrev, stop := InitOrder.ChildStep(cs, p, accept);
      if stop {
        FailureIsExplained(cs[0], p, accept);
      } else {
        ChildrenFailureIsExplained(cs[1..], restPrev, accept);
        var r := VisitChildren(cs, p, accept);
        if r.outcome.Failed? {
          var k :| 0 <= k < |cs[1..]| && Explained(r.outcome.error, cs[1..][k], accept);
          assert cs[1..][k] == cs[k + 1];
        }
      }
    }
  }

  /** The converse of `FailureIsExplained` on a module not yet initialised:
      a config holding a non-dict raises at that element, a rejected
      non-empty group of other rules raises, a raising child makes the call
      raise with the child's error, and after the children a rejected
      non-empty group of pretrained rules raises; otherwise the call returns
      normally. */
  lemma RejectionRaises(n: Node, prov: Prov, accept: Dispatch)
    requires n.kind.Base? && !n.kind.isInit
    ensures var m := if n.tracked then n else SetTracking(n, true);
            var p := if n.tracked then prov else Defaults(n);
            var r := InitWeights(n, prov, accept);
            match SplitCfg(n.kind.cfg)
            case NotADict(i) => r.outcome == Failed(CfgNotADict(n.id, i))
            case Split(other, pretrained) =>
              if |other| > 0 && !accept(n.id, other) then
                r.outcome == Failed(DispatchFailed(n.id, other))
              else
                var c := VisitChildren(m.children, p, accept);
                && (c.outcome.Failed? ==> r.outcome == c.outcome)
                && (c.outcome.Done? && |pretrained| > 0 && !accept(n.id, pretrained) ==>
                      r.outcome == Failed(DispatchFailed(n.id, pretrained)))
                && (c.outcome.Done? && (|pretrained| == 0 || accept(n.id, pretrained)) ==>
                      r.outcome == Done)
  {
    var m := if n.tracked then n else SetTracking(n, true);
    EraseInvariants(m, n);
    EraseInvariants(Walk(m, if n.tracked then prov else Defaults(n), accept).node, m);
  }

  /** A raise ends the call where it happens: a bad config or rejected other
      rules leave the tree as it was on entry (map installed) and record no
      event after the map's creation; a raise in the children loop or at the
      pretrained rules keeps the children's progress and the events so far,
      and nothing after them, the pretrained rules in particular. */
  lemma {:induction false} RejectionStops(n: Node, prov: Prov, accept: Dispatch)
    requires n.kind.Base? && !n.kind.isInit
    ensures var m := if n.tracked then n else SetTracking(n, true);
            var p := if n.tracked then prov else Defaults(n);
            var created := if n.tracked then [] else [CreateMap(n.id)];
            var r := InitWeights(n, prov, accept);
            match SplitCfg(m.kind.cfg)
            case NotADict(_) => r.node == m && r.trace == created
            case Split(other, pretrained) =>
              if |other| > 0 && !accept(m.id, other) then
                r.node == m && r.trace == created
              else
                var t1 := if |other| > 0 then [Apply(m.id, other)] else [];
                var c := VisitChildren(m.children, p, accept);
                r.outcome.Failed? ==>
                  r.node == m.(children := c.children) && r.trace == created + t1 + c.trace
  {
    var m := if n.tracked then n else SetTracking(n, true);
    var p := if n.tracked then prov else Defaults(n);
    var created := if n.tracked then [] else [CreateMap(n.id)];
    FailedCallIsFailedWalk(n, prov, accept);
    WalkStops(m, p, accept);
    var r, w := InitWeights(n, prov, accept), Walk(m, p, accept);
    var c := VisitChildren(m.children, p, accept);
    match SplitCfg(m.kind.cfg)
    case NotADict(_) =>
      StopsAfterWalk(r, w, m, created, true, [], c);
    case Split(other, _) =>
      StopsAfterWalk(r, w, m, created, |other| > 0 && !accept(m.id, other),
                     if |other| > 0 then [Apply(m.id, other)] else [], c);
  }

  /** How a raising walk's result becomes the raising call's result. */
  lemma StopsAfterWalk(r: Run, w: Run, m: Node, created: seq<Event>, early: bool, t1: seq<Event>, c: ChildrenRun)
    requires r.outcome == w.outcome
    requires r.outcome.Failed? ==> r.node == w.node && r.trace == created + w.trace
    requires early ==> w.outcome.Failed? && w.node == m && w.trace == []
    requires !early && w.outcome.Failed? ==> w.node == m.(children := c.children) && w.trace == t1 + c.trace
    ensures early ==> r.node == m && r.trace == created
    ensures !early && r.outcome.Failed? ==> r.node == m.(children := c.children) && r.trace == created + t1 + c.trace
  {
    if !early && r.outcome.Failed? {
      assert created + (t1 + c.trace) == created + t1 + c.trace;
    }
  }

  /** A call that raises hands back the walk's tree and events after the
      map's creation. */
  lemma FailedCallIsFailedWalk(n: Node, prov: Prov, accept: Dispatch)
    requires n.kind.Base? && !n.kind.isInit
    ensures var m := if n.tracked then n else SetTracking(n, true);
            var p := if n.tracked then prov else Defaults(n);
            var r := InitWeights(n, prov, accept);
            var w := Walk(m, p, accept);
            && r.outcome == w.outcome
            && (r.outcome.Failed? ==>
                  r.node == w.node && r.trace == (if n.tracked then [] else [CreateMap(n.id)]) + w.trace)
  {
    var m := if n.tracked then n else SetTracking(n, true);
    EraseInvariants(m, n);
    EraseInvariants(Walk(m, if n.tracked then prov else Defaults(n), accept).node, m);
  }

  /** `RejectionStops` for the walk itself. */
  lemma WalkStops(m: Node, p: Prov, accept: Dispatch)
    requires m.kind.Base? && !m.kind.isInit
    ensures var w := Walk(m, p, accept);
            match SplitCfg(m.kind.cfg)
            case NotADict(_) => w.outcome.Failed? && w.node == m && w.trace == []
            case Split(other, pretrained) =>
              if |other| > 0 && !accept(m.id, other) then
                w.outcome.Failed? && w.node == m && w.trace == []
              else
                var c := VisitChildren(m.children, p, accept);
                w.outcome.Failed? ==>
                  && w.node == m.(children := c.children)
                  && w.trace == (if |other| > 0 then [Apply(m.id, other)] else []) + c.trace
  {
  }

  /** A child reached by the loop that raises makes the loop raise with the
      same error. */
  lemma RaisingChildRaises(cs: seq<Node>, p: Prov, accept: Dispatch)
    requires |cs| > 0 && cs[0].kind.Base? && !cs[0].kind.isInit
    ensures var w := InitWeights(cs[0], p, accept);
            w.outcome.Failed? ==> VisitChildren(cs, p, accept).outcome == w.outcome
  {
  }

  /** With well-formed configs and an `initialize` that never raises, a call
      always returns normally. */
  lemma NoFailureWhenRulesAccepted(n: Node, prov: Prov, accept: Dispatch)
    requires n.kind.Base? && RulesWellFormed(n) && AcceptsAll(accept)
    ensures InitWeights(n, prov, accept).outcome == Done
  {
    FailureIsExplained(n, prov, accept);
  }

  predicate NoWarn(t: seq<Event>) {
    forall e :: e in t ==> !e.Warn?
  }

  /** Line 64: the only warning a call can log is about the module it was
      made on, and only when that module was already initialised; the
      recursion never reaches an initialised module. */
  lemma {:induction false} WarnOnlyAtInitialisedEntry(n: Node, prov: Prov, accept: Dispatch)
    requires n.kind.Base?
    ensures forall x :: Warn(x) in InitWeights(n, prov, accept).trace ==> x == n.id && n.kind.isInit
    decreases Size(n), 1
  {
    var m := if n.tracked then n else SetTracking(n, true);
    var p := if n.tracked then prov else Defaults(n);
    if !m.kind.isInit {
      WalkNoWarn(m, p, accept);
    }
  }

  lemma {:induction false} WalkNoWarn(m: Node, p: Prov, accept: Dispatch)
    requires m.kind.Base? && !m.kind.isInit
    ensures NoWarn(Walk(m, p, accept).trace)
    decreases Size(m), 0
  {
    match SplitCfg(m.kind.cfg)
    case NotADict(_) =>
    case Split(other, pretrained) =>
      if !(|other| > 0 && !accept(m.id, other)) {
        ChildrenNoWarn(m.children, p, accept);
      }
  }

  lemma {:induction false} ChildrenNoWarn(cs: seq<Node>, p: Prov, accept: Dispatch)
    ensures NoWarn(VisitChildren(cs, p, accept).trace)
    decreases SizeSeq(cs), 2
  {
    if |cs| > 0 {
      var c := cs[0];
      if c.kind.Base? && !c.kind.isInit {
        WarnOnlyAtInitialisedEntry(c, p, accept);
        var w := InitWeights(c, p, accept);
        if w.outcome.Done? {
          ChildrenNoWarn(cs[1..], UpdateInfo(w.prov, w.node), accept);
        }
      } else if c.kind.Foreign? {
        ChildrenNoWarn(cs[1..], UpdateInfo(p, c), accept);
      } else {
        ChildrenNoWarn(cs[1..], p, accept);
      }
    }
  }

  /** A top-level call on a module just built by `__init__` whose rules, and
      those of its subtree, are all accepted returns normally, initialises
      every BaseModule it reaches, removes the tracking map from every module
      and ends with the report. */
  lemma FreshTreeFullyInitialised(id: NodeId, cls: string, key: string, cfg: InitCfg,
                                  params: seq<Param>, children: seq<Node>, prov: Prov, accept: Dispatch)
    requires RulesWellFormed(NewBaseModule(id, cls, key, cfg, params, children)) && AcceptsAll(accept)
    ensures var n := NewBaseModule(id, cls, key, cfg, params, children);
            var r := InitWeights(n, prov, accept);
              && r.outcome == Done
              && Completed(n, r.node)
              && EveryTracked(r.node, false)
              && |r.trace| > 0 && r.trace[|r.trace| - 1].Finalize? && r.trace[|r.trace| - 1].node == id
  {
    var n := NewBaseModule(id, cls, key, cfg, params, children);
    NoFailureWhenRulesAccepted(n, prov, accept);
    CompletesReachedModules(n, prov, accept);
  }
}

=== FILE: init_order.dfy ===
/** The order in which `init_weights` touches a tree
    (perceptia/modules/base_module.py, lines 63-97): a module's other rules
    before any of its children start, its children in declaration order,
    initialised or plain children not at all, and its pretrained rules after
    every child has finished. */
module InitOrder {
  import opened InitConfig
  import opened ModuleTree
  import opened BaseModule

  /** Every event concerns a module of the tree the call was made on. */
  lemma {:induction false} TraceWithin(n: Node, prov: Prov, accept: Dispatch)
    requires n.kind.Base?
    ensures forall e :: e in InitWeights(n, prov, accept).trace ==> EventNode(e) in Ids(n)
    decreases Size(n), 1
  {
    var m := if n.tracked then n else SetTracking(n, true);
    EraseInvariants(m, n);
    if !m.kind.isInit {
      WalkTraceWithin(m, if n.tracked then prov else Defaults(n), accept);
    }
  }

  /** A walk's own events are the applications of the module's rules; all
      other events concern its descendants. */
  lemma {:induction false} WalkTraceWithin(m: Node, p: Prov, accept: Dispatch)
    requires m.kind.Base? && !m.kind.isInit
    ensures forall e :: e in Walk(m, p, accept).trace ==>
              (e.Apply? && e.node == m.id) || EventNode(e) in IdsSeq(m.children)
    decreases Size(m), 0
  {
    match SplitCfg(m.kind.cfg)
    case NotADict(_) =>
    case Split(other, pretrained) =>
      if !(|other| > 0 && !accept(m.id, other)) {
        ChildrenTraceWithin(m.children, p, accept);
      }
  }

  lemma {:induction false} ChildrenTraceWithin(cs: seq<Node>, p: Prov, accept: Dispatch)
    ensures forall e :: e in VisitChildren(cs, p, accept).trace ==> EventNode(e) in IdsSeq(cs)
    decreases SizeSeq(cs), 2
  {
    if |cs| > 0 {
      var c := cs[0];
      if c.kind.Base? && !c.kind.isInit {
        TraceWithin(c, p, accept);
        var w := InitWeights(c, p, accept);
        if w.outcome.Done? {
          ChildrenTraceWithin(cs[1..], UpdateInfo(w.prov, w.node), accept);
        }
      } else if c.kind.Foreign? {
        ChildrenTraceWithin(cs[1..], UpdateInfo(p, c), accept);
      } else {
        ChildrenTraceWithin(cs[1..], p, accept);
      }
    }
  }

  /** Every occurrence of `x` in `t` comes before every event about `s`. */
  predicate EventBefore(t: seq<Event>, x: Event, s: set<NodeId>) {
    forall i, j :: 0 <= i < |t| && 0 <= j < |t| && t[i] == x && EventNode(t[j]) in s ==> i < j
  }

  /** Every occurrence of `x` in `t` comes after every event about `s`. */
  predicate EventAfter(t: seq<Event>, x: Event, s: set<NodeId>) {
    forall i, j :: 0 <= i < |t| && 0 <= j < |t| && t[i] == x && EventNode(t[j]) in s ==> j < i
  }

  /** Every event about `s1` comes before every event about `s2`. */
  predicate Precedes(t: seq<Event>, s1: set<NodeId>, s2: set<NodeId>) {
    forall i, j :: 0 <= i < |t| && 0 <= j < |t| && EventNode(t[i]) in s1 && EventNode(t[j]) in s2 ==> i < j
  }

  predicate NoneAbout(t: seq<Event>, s: set<NodeId>) {
    forall e :: e in t ==> EventNode(e) !in s
  }

  lemma EventBeforeSplit(a: seq<Event>, b: seq<Event>, x: Event, s: set<NodeId>)
    requires x !in b && NoneAbout(a, s)
    ensures EventBefore(a + b, x, s)
  {
    var t := a + b;
    forall i, j | 0 <= i < |t| && 0 <= j < |t| && t[i] == x && EventNode(t[j]) in s
      ensures i < j
    {
    }
  }

  lemma EventAfterSplit(a: seq<Event>, b: seq<Event>, x: Event, s: set<NodeId>)
    requires x !in a && NoneAbout(b, s)
    ensures EventAfter(a + b, x, s)
  {
    var t := a + b;
    forall i, j | 0 <= i < |t| && 0 <= j < |t| && t[i] == x && EventNode(t[j]) in s
      ensures j < i
    {
    }
  }

  lemma PrecedesSplit(a: seq<Event>, b: seq<Event>, s1: set<NodeId>, s2: set<NodeId>)
    requires NoneAbout(a, s2) && NoneAbout(b, s1)
    ensures Precedes(a + b, s1, s2)
  {
    var t := a + b;
    forall i, j | 0 <= i < |t| && 0 <= j < |t| && EventNode(t[i]) in s1 && EventNode(t[j]) in s2
      ensures i < j
    {
    }
  }

  lemma PrecedesShift(a: seq<Event>, b: seq<Event>, s1: set<NodeId>, s2: set<NodeId>)
    requires NoneAbout(a, s1) && NoneAbout(a, s2) && Precedes(b, s1, s2)
    ensures Precedes(a + b, s1, s2)
  {
    var t := a + b;
    forall i, j | 0 <= i < |t| && 0 <= j < |t| && EventNode(t[i]) in s1 && EventNode(t[j]) in s2
      ensures i < j
    {
      assert t[i] == b[i - |a|] && t[j] == b[j - |a|];
    }
  }

  lemma TwoEventsOrdered(a: seq<Event>, b: seq<Event>, x: Event, y: Event)
    requires x !in b && y !in a
    ensures forall i, j :: 0 <= i < |a + b| && 0 <= j < |a + b| && (a + b)[i] == x && (a + b)[j] == y ==> i < j
  {
    var t := a + b;
    forall i, j | 0 <= i < |t| && 0 <= j < |t| && t[i] == x && t[j] == y
      ensures i < j
    {
    }
  }

  /** The events of a call: the map creation when top-level, the walk's (or
      the warning), and the report when top-level and successful. */
  lemma InitWeightsTrace(n: Node, prov: Prov, accept: Dispatch) returns (created: seq<Event>, fin: seq<Event>)
    requires n.kind.Base? && !n.kind.isInit
    ensures var m := if n.tracked then n else SetTracking(n, true);
            var p := if n.tracked then prov else Defaults(n);
              && InitWeights(n, prov, accept).trace == created + Walk(m, p, accept).trace + fin
              && (forall e :: e in created ==> e == CreateMap(n.id))
              && (forall e :: e in fin ==> e.Finalize? && e.node == n.id)
  {
    var top := !n.tracked;
    var m := if top then SetTracking(n, true) else n;
    var p := if top then Defaults(n) else prov;
    created := if top then [CreateMap(n.id)] else [];
    var w := Walk(m, p, accept);
    EraseInvariants(w.node, m);
    EraseInvariants(m, n);
    fin := if top && w.outcome.Done? then [Finalize(n.id, Report(w.node, w.prov))] else [];
  }

  /** The events of a walk: the other rules, the children's events, the
      pretrained rules. */
  lemma WalkTrace(m: Node, p: Prov, accept: Dispatch, other: seq<CfgDict>, pretrained: seq<CfgDict>)
      returns (t1: seq<Event>, ct: seq<Event>, t3: seq<Event>)
    requires m.kind.Base? && !m.kind.isInit
    requires SplitCfg(m.kind.cfg) == Split(other, pretrained)
    ensures Walk(m, p, accept).trace == t1 + ct + t3
    ensures forall e :: e in t1 ==> e == Apply(m.id, other) && |other| > 0
    ensures ct == [] || ct == VisitChildren(m.children, p, accept).trace
    ensures forall e :: e in t3 ==> e == Apply(m.id, pretrained) && |pretrained| > 0
    ensures Walk(m, p, accept).outcome.Done? ==>
              && t1 == (if |other| > 0 then [Apply(m.id, other)] else [])
              && ct == VisitChildren(m.children, p, accept).trace
              && t3 == (if |pretrained| > 0 then [Apply(m.id, pretrained)] else [])
  {
    if |other| > 0 && !accept(m.id, other) {
      t1, ct, t3 := [], [], [];
    } else {
      t1 := if |other| > 0 then [Apply(m.id, other)] else [];
      var c := VisitChildren(m.children, p, accept);
      ct := c.trace;
      t3 := if c.outcome.Done? && |pretrained| > 0 && accept(m.id, pretrained)
            then [Apply(m.id, pretrained)] else [];
    }
  }

  /** On a module not yet initialised, its other rules are applied before any
      event of its subtree, its pretrained rules after every event of its
      subtree (each child's `init_weights` and `update_init_info` included),
      and the other rules before the pretrained ones. */
  lemma OtherBeforeSubtreeBeforePretrained(n: Node, prov: Prov, accept: Dispatch,
                                           other: seq<CfgDict>, pretrained: seq<CfgDict>)
    requires n.kind.Base? && !n.kind.isInit && UniqueIds(n)
    requires SplitCfg(n.kind.cfg) == Split(other, pretrained)
    ensures var t := InitWeights(n, prov, accept).trace;
              && EventBefore(t, Apply(n.id, other), IdsSeq(n.children))
              && EventAfter(t, Apply(n.id, pretrained), IdsSeq(n.children))
              && (forall i, j ::
                    (0 <= i < |t| && 0 <= j < |t| && t[i] == Apply(n.id, other) && t[j] == Apply(n.id, pretrained))
                    ==> i < j)
  {
    var m := if n.tracked then n else SetTracking(n, true);
    var p := if n.tracked then prov else Defaults(n);
    EraseInvariants(m, n);
    var created, fin := InitWeightsTrace(n, prov, accept);
    var t1, ct, t3 := WalkTrace(m, p, accept, other, pretrained);
    ChildrenTraceWithin(m.children, p, accept);
    GroupsDiffer(n.kind.cfg, other, pretrained);
    OrderFromParts(created, Walk(m, p, accept).trace, fin, t1, ct, t3, n.id, other, pretrained, IdsSeq(n.children));
  }

  /** On a module not yet initialised, a call that returns normally applies
      its other rules exactly once if there are any and never otherwise, and
      likewise its pretrained rules. */
  lemma {:induction false} RulesAppliedOnce(n: Node, prov: Prov, accept: Dispatch,
                         other: seq<CfgDict>, pretrained: seq<CfgDict>)
    requires n.kind.Base? && !n.kind.isInit && UniqueIds(n)
    requires SplitCfg(n.kind.cfg) == Split(other, pretrained)
    ensures var r := InitWeights(n, prov, accept);
            r.outcome.Done? ==>
              && (Apply(n.id, other) in r.trace <==> |other| > 0)
              && (Apply(n.id, pretrained) in r.trace <==> |pretrained| > 0)
              && multiset(r.trace)[Apply(n.id, other)] == (if |other| > 0 then 1 else 0)
              && multiset(r.trace)[Apply(n.id, pretrained)] == (if |pretrained| > 0 then 1 else 0)
  {
    var m := if n.tracked then n else SetTracking(n, true);
    var p := if n.tracked then prov else Defaults(n);
    EraseInvariants(m, n);
    var created, fin := InitWeightsTrace(n, prov, accept);
    if InitWeights(n, prov, accept).outcome.Done? {
      WalkRulesAppliedOnce(m, p, accept, other, pretrained);
      CountAround(created, Walk(m, p, accept).trace, fin, n.id, other);
      CountAround(created, Walk(m, p, accept).trace, fin, n.id, pretrained);
    }
  }

  /** `RulesAppliedOnce` for the walk itself. */
  lemma {:induction false} WalkRulesAppliedOnce(m: Node, p: Prov, accept: Dispatch,
                             other: seq<CfgDict>, pretrained: seq<CfgDict>)
    requires m.kind.Base? && !m.kind.isInit && m.id !in IdsSeq(m.children)
    requires SplitCfg(m.kind.cfg) == Split(other, pretrained)
    ensures var w := Walk(m, p, accept);
            w.outcome.Done? ==>
              && multiset(w.trace)[Apply(m.id, other)] == (if |other| > 0 then 1 else 0)
              && multiset(w.trace)[Apply(m.id, pretrained)] == (if |pretrained| > 0 then 1 else 0)
  {
    if Walk(m, p, accept).outcome.Done? {
      var t1, ct, t3 := WalkTrace(m, p, accept, other, pretrained);
      ChildrenTraceWithin(m.children, p, accept);
      GroupsDiffer(m.kind.cfg, other, pretrained);
      var s := IdsSeq(m.children);
      assert Apply(m.id, other) !in ct && Apply(m.id, pretrained) !in ct;
      assert multiset(ct)[Apply(m.id, other)] == 0 && multiset(ct)[Apply(m.id, pretrained)] == 0;
    }
  }

  /** The two groups of a split are different unless both are empty. */
  lemma GroupsDiffer(cfg: InitCfg, other: seq<CfgDict>, pretrained: seq<CfgDict>)
    requires SplitCfg(cfg) == Split(other, pretrained)
    ensures (|other| > 0 || |pretrained| > 0) ==> other != pretrained
  {
    if |other| > 0 {
      assert other[0] in other;
      assert !IsPretrained(other[0]);
      if |pretrained| > 0 {
        assert pretrained[0] in pretrained;
      }
    }
  }

  /** Map creation and the report are never rule applications. */
  lemma CountAround(created: seq<Event>, w: seq<Event>, fin: seq<Event>, id: NodeId, rules: seq<CfgDict>)
    requires forall e :: e in created ==> e == CreateMap(id)
    requires forall e :: e in fin ==> e.Finalize? && e.node == id
    ensures multiset(created + w + fin)[Apply(id, rules)] == multiset(w)[Apply(id, rules)]
  {
    var x := Apply(id, rules);
    assert x !in created && x !in fin;
    assert multiset(created)[x] == 0 && multiset(fin)[x] == 0;
  }

  lemma OrderFromParts(created: seq<Event>, w: seq<Event>, fin: seq<Event>,
                       t1: seq<Event>, ct: seq<Event>, t3: seq<Event>,
                       id: NodeId, other: seq<CfgDict>, pretrained: seq<CfgDict>, s: set<NodeId>)
    requires w == t1 + ct + t3
    requires id !in s && ((|other| > 0 || |pretrained| > 0) ==> other != pretrained)
    requires forall e :: e in created ==> e.CreateMap? && e.node == id
    requires forall e :: e in t1 ==> e == Apply(id, other) && |other| > 0
    requires forall e :: e in ct ==> EventNode(e) in s
    requires forall e :: e in t3 ==> e == Apply(id, pretrained) && |pretrained| > 0
    requires forall e :: e in fin ==> e.Finalize? && e.node == id
    ensures var t := created + w + fin;
              && EventBefore(t, Apply(id, other), s)
              && EventAfter(t, Apply(id, pretrained), s)
              && (forall i, j ::
                    (0 <= i < |t| && 0 <= j < |t| && t[i] == Apply(id, other) && t[j] == Apply(id, pretrained))
                    ==> i < j)
  {
    var t := created + w + fin;
    assert t == (created + t1) + (ct + t3 + fin);
    EventBeforeSplit(created + t1, ct + t3 + fin, Apply(id, other), s);
    TwoEventsOrdered(created + t1, ct + t3 + fin, Apply(id, other), Apply(id, pretrained));
    assert t == (created + t1 + ct) + (t3 + fin);
    EventAfterSplit(created + t1 + ct, t3 + fin, Apply(id, pretrained), s);
  }

  /** One step of the children loop: the first child's events, then the
      rest of the loop unless the first child raised. */
  lemma {:induction false} ChildStep(cs: seq<Node>, p: Prov, accept: Dispatch) returns (head: seq<Event>, restPrev: Prov, stop: bool)
    requires |cs| > 0
    ensures var r := VisitChildren(cs, p, accept);
            var rest := VisitChildren(cs[1..], restPrev, accept);
              && (forall e :: e in head ==> EventNode(e) in Ids(cs[0]))
              && (stop ==> r.trace == head && r.children[1..] == cs[1..] && r.outcome.Failed?)
              && (!stop ==> r.trace == head + rest.trace && r.children[1..] == rest.children
                            && r.outcome == rest.outcome && r.prov == rest.prov)
              && (!Visited(cs[0]) ==> !stop && head == [] && restPrev == p && r.children[0] == cs[0])
              && (cs[0].kind.Foreign? ==> !stop && restPrev == UpdateInfo(p, cs[0]) && r.children[0] == cs[0])
              && (cs[0].kind.Base? && !cs[0].kind.isInit ==>
                    var w := InitWeights(cs[0], p, accept);
                    r.children[0] == w.node && (stop <==> w.outcome.Failed?) &&
                    (!stop ==> restPrev == UpdateInfo(w.prov, w.node)) &&
                    (stop ==> r.prov == w.prov) &&
                    head == w.trace + (if stop then [] else [ChildInfo(cs[0].id)]))
              && (cs[0].kind.Foreign? ==> head == [ForeignInit(cs[0].id), ChildInfo(cs[0].id)])
  {
    var c := cs[0];
    if c.kind.Base? && !c.kind.isInit {
      TraceWithin(c, p, accept);
      var w := InitWeights(c, p, accept);
      stop := w.outcome.Failed?;
      if stop {
        head, restPrev := w.trace, p;
      } else {
        head, restPrev := w.trace + [ChildInfo(c.id)], UpdateInfo(w.prov, w.node);
      }
    } else if c.kind.Foreign? {
      head, restPrev, stop := [ForeignInit(c.id), ChildInfo(c.id)], UpdateInfo(p, c), false;
    } else {
      head, restPrev, stop := [], p, false;
    }
  }

  /** The trace part of `ChildStep`: a skipped child contributes nothing, a
      foreign child its own call and its `update_init_info`, and a recursed
      child that returns normally its call's events closed by its
      `update_init_info`. */
  lemma {:induction false} ChildTraceStep(cs: seq<Node>, p: Prov, accept: Dispatch) returns (head: seq<Event>, restPrev: Prov, stop: bool)
    requires |cs| > 0
    ensures forall e :: e in head ==> EventNode(e) in Ids(cs[0])
    ensures !Visited(cs[0]) ==> head == [] && !stop
    ensures cs[0].kind.Foreign? ==> head == [ForeignInit(cs[0].id), ChildInfo(cs[0].id)] && !stop
    ensures cs[0].kind.Base? && !cs[0].kind.isInit ==>
              head == InitWeights(cs[0], p, accept).trace + (if stop then [] else [ChildInfo(cs[0].id)])
    ensures cs[0].kind.Base? && !cs[0].kind.isInit && !stop ==>
              |head| > 0 && head[|head| - 1] == ChildInfo(cs[0].id)
    ensures stop ==> VisitChildren(cs, p, accept).trace == head && VisitChildren(cs, p, accept).outcome.Failed?
    ensures !stop ==> VisitChildren(cs, p, accept).trace == head + VisitChildren(cs[1..], restPrev, accept).trace
    ensures !stop ==> VisitChildren(cs, p, accept).outcome == VisitChildren(cs[1..], restPrev, accept).outcome
  {
    head, restPrev, stop := ChildStep(cs, p, accept);
  }

  /** Events of a children loop, one segment per child in order. */
  function Concat(ss: seq<seq<Event>>): seq<Event> {
    if |ss| == 0 then [] else ss[0] + Concat(ss[1..])
  }

  /** Segment `k` concerns only the subtree of child `k`, and a skipped child
      has an empty segment. */
  predicate SegmentsWithin(ss: seq<seq<Event>>, cs: seq<Node>) {
    && |ss| <= |cs|
    && forall k :: 0 <= k < |ss| ==>
         && (forall e :: e in ss[k] ==> EventNode(e) in Ids(cs[k]))
         && (!Visited(cs[k]) ==> ss[k] == [])
  }

  /** A foreign child's segment is its call and its `update_init_info`; the
      segment of a recursed child that returned normally (every one, when
      `done`, else all but the last) ends with its `update_init_info`. */
  predicate SegmentShapes(ss: seq<seq<Event>>, cs: seq<Node>, done: bool) {
    && |ss| <= |cs|
    && forall k :: 0 <= k < |ss| ==>
         && (cs[k].kind.Foreign? ==> ss[k] == [ForeignInit(cs[k].id), ChildInfo(cs[k].id)])
         && (cs[k].kind.Base? && !cs[k].kind.isInit && (done || k + 1 < |ss|) ==>
               |ss[k]| > 0 && ss[k][|ss[k]| - 1] == ChildInfo(cs[k].id))
  }

  /** The segment of a recursed child is the trace of that child's own
      `init_weights` call followed by its `update_init_info`; only the last
      segment of a loop that raised (`done` false) lacks the latter. */
  ghost predicate SegmentsAreCalls(ss: seq<seq<Event>>, cs: seq<Node>, accept: Dispatch, done: bool) {
    && |ss| <= |cs|
    && forall k :: 0 <= k < |ss| && cs[k].kind.Base? && !cs[k].kind.isInit ==>
         exists q: Prov :: ss[k] == InitWeights(cs[k], q, accept).trace
                                    + (if done || k + 1 < |ss| then [ChildInfo(cs[k].id)] else [])
  }

  /** The children loop's events split into one segment per child reached;
      when the loop returns normally every child is reached. */
  lemma {:induction false} ChildSegments(cs: seq<Node>, p: Prov, accept: Dispatch) returns (ss: seq<seq<Event>>)
    ensures Concat(ss) == VisitChildren(cs, p, accept).trace
    ensures SegmentsWithin(ss, cs)
    ensures VisitChildren(cs, p, accept).outcome.Done? ==> |ss| == |cs|
    ensures SegmentShapes(ss, cs, VisitChildren(cs, p, accept).outcome.Done?)
    ensures SegmentsAreCalls(ss, cs, accept, VisitChildren(cs, p, accept).outcome.Done?)
    ensures |cs| > 0 ==> |ss| > 0
    decreases cs
  {
    if |cs| == 0 {
      ss := [];
    } else {
      var head, restPrev, stop := ChildTraceStep(cs, p, accept);
      if stop {
        ss := [head];
        assert Concat(ss) == head + Concat([]);
        SegmentsCons(head, [], cs, false);
        CallsCons(head, [], cs, p, accept, false);
      } else {
        var rs := ChildSegments(cs[1..], restPrev, accept);
        ss := [head] + rs;
        assert ss[1..] == rs;
        SegmentsCons(head, rs, cs, VisitChildren(cs, p, accept).outcome.Done?);
        CallsCons(head, rs, cs, p, accept, VisitChildren(cs, p, accept).outcome.Done?);
      }
    }
  }

  /** `SegmentsAreCalls` for a child's segment put in front of the segments
      of its later siblings. */
  lemma CallsCons(head: seq<Event>, rs: seq<seq<Event>>, cs: seq<Node>, p: Prov, accept: Dispatch, done: bool)
    requires |cs| > 0 && SegmentsAreCalls(rs, cs[1..], accept, done)
    requires cs[0].kind.Base? && !cs[0].kind.isInit ==>
               head == InitWeights(cs[0], p, accept).trace + (if done || |rs| > 0 then [ChildInfo(cs[0].id)] else [])
    ensures SegmentsAreCalls([head] + rs, cs, accept, done)
  {
    var ss := [head] + rs;
    forall k | 0 <= k < |ss| && cs[k].kind.Base? && !cs[k].kind.isInit
      ensures exists q: Prov :: ss[k] == InitWeights(cs[k], q, accept).trace
                                         + (if done || k + 1 < |ss| then [ChildInfo(cs[k].id)] else [])
    {
      if k == 0 {
        assert ss[0] == head;
        assert ss[k] == InitWeights(cs[k], p, accept).trace
                        + (if done || k + 1 < |ss| then [ChildInfo(cs[k].id)] else []);
      } else {
        assert ss[k] == rs[k - 1] && cs[k] == cs[1..][k - 1];
      }
    }
  }

  /** A child's segment put in front of the segments of its later siblings. */
  lemma SegmentsCons(head: seq<Event>, rs: seq<seq<Event>>, cs: seq<Node>, done: bool)
    requires |cs| > 0
    requires SegmentsWithin(rs, cs[1..]) && SegmentShapes(rs, cs[1..], done)
    requires forall e :: e in head ==> EventNode(e) in Ids(cs[0])
    requires !Visited(cs[0]) ==> head == []
    requires cs[0].kind.Foreign? ==> head == [ForeignInit(cs[0].id), ChildInfo(cs[0].id)]
    requires cs[0].kind.Base? && !cs[0].kind.isInit && (done || |rs| > 0) ==>
               |head| > 0 && head[|head| - 1] == ChildInfo(cs[0].id)
    ensures SegmentsWithin([head] + rs, cs) && SegmentShapes([head] + rs, cs, done)
  {
    var ss := [head] + rs;
    forall k | 1 <= k < |ss|
      ensures (forall e :: e in ss[k] ==> EventNode(e) in Ids(cs[k])) && (!Visited(cs[k]) ==> ss[k] == [])
      ensures cs[k].kind.Foreign? ==> ss[k] == [ForeignInit(cs[k].id), ChildInfo(cs[k].id)]
      ensures cs[k].kind.Base? && !cs[k].kind.isInit && (done || k + 1 < |ss|) ==>
                |ss[k]| > 0 && ss[k][|ss[k]| - 1] == ChildInfo(cs[k].id)
    {
      assert ss[k] == rs[k - 1] && cs[k] == cs[1..][k - 1];
    }
  }

  /** When the children loop returns normally, the events of every recursed
      child's own `init_weights` call appear in the loop's trace as one
      unbroken block, right before that child's `update_init_info`; so what
      is proved about a single call (the rule order above) holds for every
      module the walk reaches. */
  lemma {:induction false} RecursedChildCallInLoop(cs: seq<Node>, p: Prov, accept: Dispatch, k: nat)
      returns (pre: seq<Event>, q: Prov, post: seq<Event>)
    requires k < |cs| && cs[k].kind.Base? && !cs[k].kind.isInit
    requires VisitChildren(cs, p, accept).outcome.Done?
    ensures VisitChildren(cs, p, accept).trace
              == pre + InitWeights(cs[k], q, accept).trace + [ChildInfo(cs[k].id)] + post
  {
    var ss := ChildSegments(cs, p, accept);
    pre, q, post := CallSegment(ss, cs, accept, k);
  }

  /** The block of segment `k` inside the concatenated segments. */
  lemma {:induction false} CallSegment(ss: seq<seq<Event>>, cs: seq<Node>, accept: Dispatch, k: nat)
      returns (pre: seq<Event>, q: Prov, post: seq<Event>)
    requires SegmentsAreCalls(ss, cs, accept, true) && |ss| == |cs|
    requires k < |cs| && cs[k].kind.Base? && !cs[k].kind.isInit
    ensures Concat(ss) == pre + InitWeights(cs[k], q, accept).trace + [ChildInfo(cs[k].id)] + post
  {
    q :| ss[k] == InitWeights(cs[k], q, accept).trace + [ChildInfo(cs[k].id)];
    ConcatSplit(ss, k);
    pre, post := Concat(ss[..k]), Concat(ss[k + 1..]);
  }

  lemma {:induction false} ConcatSplit(ss: seq<seq<Event>>, k: nat)
    requires k < |ss|
    ensures Concat(ss) == Concat(ss[..k]) + ss[k] + Concat(ss[k + 1..])
    decreases k
  {
    if k > 0 {
      ConcatSplit(ss[1..], k - 1);
      assert ss[..k][1..] == ss[1..][..k - 1];
      assert ss[1..][k - 1] == ss[k] && ss[1..][k..] == ss[k + 1..];
    } else {
      assert ss[1..] == ss[k + 1..];
    }
  }

  lemma {:induction false} ConcatNoneAbout(ss: seq<seq<Event>>, s: set<NodeId>)
    requires forall k :: 0 <= k < |ss| ==> NoneAbout(ss[k], s)
    ensures NoneAbout(Concat(ss), s)
    decreases |ss|
  {
    if |ss| > 0 {
      assert NoneAbout(ss[0], s);
      forall k | 0 <= k < |ss[1..]| ensures NoneAbout(ss[1..][k], s) {
        assert ss[1..][k] == ss[k + 1];
      }
      ConcatNoneAbout(ss[1..], s);
    }
  }

  lemma SegmentsWithinTail(ss: seq<seq<Event>>, cs: seq<Node>)
    requires SegmentsWithin(ss, cs) && |ss| > 0
    ensures SegmentsWithin(ss[1..], cs[1..])
  {
    forall k | 0 <= k < |ss[1..]|
      ensures (forall e :: e in ss[1..][k] ==> EventNode(e) in Ids(cs[1..][k])) && (!Visited(cs[1..][k]) ==> ss[1..][k] == [])
    {
      assert ss[1..][k] == ss[k + 1] && cs[1..][k] == cs[k + 1];
    }
  }

  /** Segments about pairwise disjoint subtrees are ordered like the subtrees. */
  lemma {:induction false} SegmentsOrdered(ss: seq<seq<Event>>, cs: seq<Node>, a: nat, b: nat)
    requires UniqueIdsSeq(cs) && SegmentsWithin(ss, cs) && a < b < |cs|
    ensures Precedes(Concat(ss), Ids(cs[a]), Ids(cs[b]))
    decreases |ss|
  {
    if |ss| > 0 {
      assert cs[1..][b - 1] == cs[b];
      assert a > 0 ==> cs[1..][a - 1] == cs[a];
      SiblingsDisjoint(cs, 0, b);
      SegmentsWithinTail(ss, cs);
      assert forall e :: e in ss[0] ==> EventNode(e) in Ids(cs[0]);
      if a == 0 {
        forall k | 0 <= k < |ss[1..]| ensures NoneAbout(ss[1..][k], Ids(cs[0])) {
          SiblingsDisjoint(cs, 0, k + 1);
          assert ss[1..][k] == ss[k + 1];
        }
        ConcatNoneAbout(ss[1..], Ids(cs[0]));
        PrecedesSplit(ss[0], Concat(ss[1..]), Ids(cs[0]), Ids(cs[b]));
      } else {
        SiblingsDisjoint(cs, 0, a);
        SegmentsOrdered(ss[1..], cs[1..], a - 1, b - 1);
        PrecedesShift(ss[0], Concat(ss[1..]), Ids(cs[a]), Ids(cs[b]));
      }
    }
  }

  /** Children are visited in declaration order: every event about an
      earlier child's subtree precedes every event about a later one's. */
  lemma ChildrenInDeclarationOrder(cs: seq<Node>, p: Prov, accept: Dispatch, a: nat, b: nat)
    requires UniqueIdsSeq(cs) && a < b < |cs|
    ensures Precedes(VisitChildren(cs, p, accept).trace, Ids(cs[a]), Ids(cs[b]))
  {
    var ss := ChildSegments(cs, p, accept);
    SegmentsOrdered(ss, cs, a, b);
  }

  /** A child that is already initialised, or has no `init_weights`, is
      skipped entirely: it comes back unchanged and no event concerns any
      module of its subtree. */
  lemma SkippedChildUntouched(cs: seq<Node>, p: Prov, accept: Dispatch, k: nat)
    requires UniqueIdsSeq(cs) && k < |cs| && !Visited(cs[k])
    ensures var r := VisitChildren(cs, p, accept);
              r.children[k] == cs[k] && NoneAbout(r.trace, Ids(cs[k]))
  {
    SkippedChildKept(cs, p, accept, k);
    var ss := ChildSegments(cs, p, accept);
    SkippedSegmentEmpty(ss, cs, k);
  }

  lemma SkippedSegmentEmpty(ss: seq<seq<Event>>, cs: seq<Node>, k: nat)
    requires UniqueIdsSeq(cs) && SegmentsWithin(ss, cs) && k < |cs| && !Visited(cs[k])
    ensures NoneAbout(Concat(ss), Ids(cs[k]))
  {
    forall j | 0 <= j < |ss| ensures NoneAbout(ss[j], Ids(cs[k])) {
      if j < k {
        SiblingsDisjoint(cs, j, k);
      } else if k < j {
        SiblingsDisjoint(cs, k, j);
      }
    }
    ConcatNoneAbout(ss, Ids(cs[k]));
  }

  lemma {:induction false} SkippedChildKept(cs: seq<Node>, p: Prov, accept: Dispatch, k: nat)
    requires k < |cs| && !Visited(cs[k])
    ensures VisitChildren(cs, p, accept).children[k] == cs[k]
    decreases cs
  {
    if k > 0 {
      assert cs[1..][k - 1] == cs[k];
      var c := cs[0];
      if c.kind.Base? && !c.kind.isInit {
        var w := InitWeights(c, p, accept);
        if w.outcome.Done? {
          SkippedChildKept(cs[1..], UpdateInfo(w.prov, w.node), accept, k - 1);
        }
      } else if c.kind.Foreign? {
        SkippedChildKept(cs[1..], UpdateInfo(p, c), accept, k - 1);
      } else {
        SkippedChildKept(cs[1..], p, accept, k - 1);
      }
    }
  }
}

=== FILE: module_tree.dfy ===
/** A tree of modules as the initialisation walk sees it: identities, kinds,
    directly registered parameters, children in registration order, and the
    two pieces of mutable state the walk touches, `_is_init` and the
    presence of `_params_init_info` (perceptia/modules/base_module.py). */
module ModuleTree {
  import opened InitConfig

  type NodeId = nat
  type ParamId = nat

  /** A parameter registered directly on a module: its attribute name, its
      identity (the tensor object) and its shape. */
  datatype Param = Param(name: string, id: ParamId, shape: seq<nat>)

  /** What the walk can tell about a child after `unwrap_model`. */
  datatype Kind =
    | Base(cfg: InitCfg, isInit: bool)  // a BaseModule, containers included
    | Foreign                           // another library's module with its own init_weights
    | Plain                             // a module without init_weights, or a foreign
                                        // one whose truthy `is_init` makes the children loop skip it

  /** A module: identity, class name, attribute name under its parent, kind,
      directly registered parameters, children in registration order (the
      order `Sequential`, `ModuleList` and `ModuleDict` give them), and whether
      it currently holds the `_params_init_info` attribute. */
  datatype Node = Node(id: NodeId, cls: string, key: string, kind: Kind,
                       params: seq<Param>, children: seq<Node>, tracked: bool)

  predicate IsInit(n: Node) {
    n.kind.Base? && n.kind.isInit
  }

  /** A child the walk visits (lines 87-90) is a BaseModule not yet initialised, or a module of
      another library with its own `init_weights`. */
  predicate Visited(c: Node) {
    (c.kind.Base? && !c.kind.isInit) || c.kind.Foreign?
  }

  /** `BaseModule.__init__` (lines 25-28): the config is kept as given, the
      module starts not initialised, and it holds no tracking map yet. */
  function NewBaseModule(id: NodeId, cls: string, key: string, cfg: InitCfg,
                         params: seq<Param>, children: seq<Node>): (n: Node)
    ensures n.kind.Base? && !IsInit(n) && !n.tracked
    ensures n.kind.cfg == cfg && n.children == children && n.params == params
  {
    Node(id, cls, key, Base(cfg, false), params, children, false)
  }

  // ---------------------------------------------------------------------
  // Size, identities and parameters

  function Size(n: Node): (s: nat)
    ensures s >= 1
  {
    1 + SizeSeq(n.children)
  }

  function SizeSeq(cs: seq<Node>): nat {
    if |cs| == 0 then 0 else Size(cs[0]) + SizeSeq(cs[1..])
  }

  /** The identities of every module of the tree (`self.modules()`). */
  function Ids(n: Node): set<NodeId> {
    {n.id} + IdsSeq(n.children)
  }

  function IdsSeq(cs: seq<Node>): set<NodeId> {
    if |cs| == 0 then {} else Ids(cs[0]) + IdsSeq(cs[1..])
  }

  /** Module identities are distinct: the modules form a tree. */
  predicate UniqueIds(n: Node) {
    n.id !in IdsSeq(n.children) && UniqueIdsSeq(n.children)
  }

  predicate UniqueIdsSeq(cs: seq<Node>) {
    |cs| > 0 ==> UniqueIds(cs[0]) && UniqueIdsSeq(cs[1..]) && Ids(cs[0]) !! IdsSeq(cs[1..])
  }

  function OwnParamIds(ps: seq<Param>): set<ParamId> {
    set k | 0 <= k < |ps| :: ps[k].id
  }

  /** The identities of every parameter of the tree. */
  function ParamIds(n: Node): set<ParamId> {
    OwnParamIds(n.params) + ParamIdsSeq(n.children)
  }

  function ParamIdsSeq(cs: seq<Node>): set<ParamId> {
    if |cs| == 0 then {} else ParamIds(cs[0]) + ParamIdsSeq(cs[1..])
  }

  /** A parameter with its dotted name relative to the module it was listed from. */
  datatype NamedParam = NamedParam(name: string, param: Param)

  function Qualify(prefix: string, name: string): string {
    if prefix == "" then name else prefix + "." + name
  }

  function Prefixed(ps: seq<Param>, prefix: string): (r: seq<NamedParam>)
    ensures |r| == |ps|
    ensures forall k :: 0 <= k < |ps| ==> r[k] == NamedParam(Qualify(prefix, ps[k].name), ps[k])
  {
    if |ps| == 0 then [] else [NamedParam(Qualify(prefix, ps[0].name), ps[0])] + Prefixed(ps[1..], prefix)
  }

  /** Parameters in pre-order: a module's own, then each child's subtree in
      order, names prefixed by the attribute path; duplicates not yet removed. */
  function AllParams(n: Node, prefix: string): seq<NamedParam> {
    Prefixed(n.params, prefix) + AllParamsSeq(n.children, prefix)
  }

  function AllParamsSeq(cs: seq<Node>, prefix: string): seq<NamedParam> {
    if |cs| == 0 then []
    else AllParams(cs[0], Qualify(prefix, cs[0].key)) + AllParamsSeq(cs[1..], prefix)
  }

  /** Keeps the first occurrence of each parameter identity. */
  function Dedup(ps: seq<NamedParam>, seen: set<ParamId>): seq<NamedParam> {
    if |ps| == 0 then []
    else if ps[0].param.id in seen then Dedup(ps[1..], seen)
    else [ps[0]] + Dedup(ps[1..], seen + {ps[0].param.id})
  }

  function ListedIds(ps: seq<NamedParam>): set<ParamId> {
    set k | 0 <= k < |ps| :: ps[k].param.id
  }

  predicate DistinctIds(ps: seq<NamedParam>) {
    forall i, j :: 0 <= i < j < |ps| ==> ps[i].param.id != ps[j].param.id
  }

  /** `named_parameters()`: each parameter of the tree once, in pre-order,
      under the name of its first occurrence. */
  function NamedParameters(n: Node): (ps: seq<NamedParam>)
    ensures DistinctIds(ps)
    ensures ListedIds(ps) == ParamIds(n)
  {
    var all := AllParams(n, "");
    DedupSound(all, {});
    AllParamsIds(n, "");
    Dedup(all, {})
  }

  lemma {:induction false} DedupSound(ps: seq<NamedParam>, seen: set<ParamId>)
    ensures DistinctIds(Dedup(ps, seen))
    ensures ListedIds(Dedup(ps, seen)) == ListedIds(ps) - seen
  {
    if |ps| > 0 {
      var p := ps[0];
      assert ListedIds(ps) == {p.param.id} + ListedIds(ps[1..]) by {
        forall x | x in ListedIds(ps) ensures x in {p.param.id} + ListedIds(ps[1..]) {
          var k :| 0 <= k < |ps| && ps[k].param.id == x;
          if k > 0 { assert ps[1..][k - 1] == ps[k]; }
        }
        forall x | x in ListedIds(ps[1..]) ensures x in ListedIds(ps) {
          var k :| 0 <= k < |ps[1..]| && ps[1..][k].param.id == x;
          assert ps[k + 1] == ps[1..][k];
        }
      }
      if p.param.id in seen {
        DedupSound(ps[1..], seen);
      } else {
        var seen' := seen + {p.param.id};
        DedupSound(ps[1..], seen');
        var rest := Dedup(ps[1..], seen');
        var r := [p] + rest;
        assert p.param.id !in ListedIds(rest);
        forall i, j | 0 <= i < j < |r| ensures r[i].param.id != r[j].param.id {
          if i == 0 {
            assert r[j] == rest[j - 1];
          } else {
            assert r[i] == rest[i - 1] && r[j] == rest[j - 1];
          }
        }
        assert ListedIds(r) == {p.param.id} + ListedIds(rest) by {
          forall x | x in ListedIds(r) ensures x in {p.param.id} + ListedIds(rest) {
            var k :| 0 <= k < |r| && r[k].param.id == x;
            if k > 0 { assert r[k] == rest[k - 1]; }
          }
          forall x | x in ListedIds(rest) ensures x in ListedIds(r) {
            var k :| 0 <= k < |rest| && rest[k].param.id == x;
            assert r[k + 1] == rest[k];
          }
          assert r[0] == p;
        }
      }
    }
  }

  lemma ListedIdsConcat(a: seq<NamedParam>, b: seq<NamedParam>)
    ensures ListedIds(a + b) == ListedIds(a) + ListedIds(b)
  {
    forall x | x in ListedIds(a + b) ensures x in ListedIds(a) + ListedIds(b) {
      var k :| 0 <= k < |a + b| && (a + b)[k].param.id == x;
      if k >= |a| { assert (a + b)[k] == b[k - |a|]; }
    }
    forall x | x in ListedIds(b) ensures x in ListedIds(a + b) {
      var k :| 0 <= k < |b| && b[k].param.id == x;
      assert (a + b)[k + |a|] == b[k];
    }
    forall x | x in ListedIds(a) ensures x in ListedIds(a + b) {
      var k :| 0 <= k < |a| && a[k].param.id == x;
      assert (a + b)[k] == a[k];
    }
  }

  lemma {:induction false} AllParamsIds(n: Node, prefix: string)
    ensures ListedIds(AllParams(n, prefix)) == ParamIds(n)
    decreases n, 1
  {
    ListedIdsConcat(Prefixed(n.params, prefix), AllParamsSeq(n.children, prefix));
    AllParamsSeqIds(n.children, prefix);
    assert ListedIds(Prefixed(n.params, prefix)) == OwnParamIds(n.params) by {
      var r := Prefixed(n.params, prefix);
      forall x | x in OwnParamIds(n.params) ensures x in ListedIds(r) {
        var k :| 0 <= k < |n.params| && n.params[k].id == x;
        assert r[k].param.id == x;
      }
    }
  }

  lemma {:induction false} AllParamsSeqIds(cs: seq<Node>, prefix: string)
    ensures ListedIds(AllParamsSeq(cs, prefix)) == ParamIdsSeq(cs)
    decreases cs, 0
  {
    if |cs| > 0 {
      AllParamsIds(cs[0], Qualify(prefix, cs[0].key));
      AllParamsSeqIds(cs[1..], prefix);
      ListedIdsConcat(AllParams(cs[0], Qualify(prefix, cs[0].key)), AllParamsSeq(cs[1..], prefix));
    } else {
      assert ListedIds([]) == {};
    }
  }

  // ---------------------------------------------------------------------
  // The tracking attribute and the shape of the tree

  /** Sets or deletes `_params_init_info` on every module of the tree, as the
      loops over `self.modules()` at lines 60-61 and 125-126 do. */
  function SetTracking(n: Node, b: bool): (r: Node)
    ensures EveryTracked(r, b)
    ensures Erase(r) == Erase(n)
    ensures Size(r) == Size(n)
    ensures r.id == n.id && r.kind == n.kind && r.cls == n.cls
  {
    n.(tracked := b, children := SetTrackingSeq(n.children, b))
  }

  function SetTrackingSeq(cs: seq<Node>, b: bool): (r: seq<Node>)
    ensures |r| == |cs|
    ensures forall k :: 0 <= k < |r| ==> EveryTracked(r[k], b)
    ensures EraseSeq(r) == EraseSeq(cs)
    ensures SizeSeq(r) == SizeSeq(cs)
  {
    if |cs| == 0 then []
    else
      var r := [SetTracking(cs[0], b)] + SetTrackingSeq(cs[1..], b);
      assert r[1..] == SetTrackingSeq(cs[1..], b);
      r
  }

  /** Every module of the tree holds (b) or lacks (!b) the tracking map. */
  predicate EveryTracked(n: Node, b: bool) {
    n.tracked == b && forall k :: 0 <= k < |n.children| ==> EveryTracked(n.children[k], b)
  }

  /** The tree with both mutable flags cleared: what the walk never changes. */
  function Erase(n: Node): Node {
    n.(kind := EraseKind(n.kind), children := EraseSeq(n.children), tracked := false)
  }

  function EraseKind(k: Kind): Kind {
    if k.Base? then Base(k.cfg, false) else k
  }

  function EraseSeq(cs: seq<Node>): seq<Node> {
    if |cs| == 0 then [] else [Erase(cs[0])] + EraseSeq(cs[1..])
  }

  /** Identities, parameters and the tree property do not depend on the
      mutable flags. */
  lemma {:induction false} EraseInvariants(a: Node, b: Node)
    requires Erase(a) == Erase(b)
    ensures ParamIds(a) == ParamIds(b)
    ensures Ids(a) == Ids(b)
    ensures UniqueIds(a) <==> UniqueIds(b)
    ensures a.id == b.id && a.cls == b.cls
    decreases a, 1
  {
    EraseInvariantsSeq(a.children, b.children);
  }

  lemma {:induction false} EraseInvariantsSeq(as_: seq<Node>, bs: seq<Node>)
    requires EraseSeq(as_) == EraseSeq(bs)
    ensures ParamIdsSeq(as_) == ParamIdsSeq(bs)
    ensures IdsSeq(as_) == IdsSeq(bs)
    ensures UniqueIdsSeq(as_) <==> UniqueIdsSeq(bs)
    ensures |as_| == |bs|
    ensures forall k :: 0 <= k < |as_| ==> Erase(as_[k]) == Erase(bs[k])
    decreases as_, 0
  {
    if |as_| > 0 {
      assert |bs| > 0;
      assert EraseSeq(as_)[0] == Erase(as_[0]) && EraseSeq(bs)[0] == Erase(bs[0]);
      assert EraseSeq(as_)[1..] == EraseSeq(as_[1..]) && EraseSeq(bs)[1..] == EraseSeq(bs[1..]);
      EraseInvariants(as_[0], bs[0]);
      EraseInvariantsSeq(as_[1..], bs[1..]);
      forall k | 0 <= k < |as_| ensures Erase(as_[k]) == Erase(bs[k]) {
        if k > 0 { assert as_[1..][k - 1] == as_[k] && bs[1..][k - 1] == bs[k]; }
      }
    } else {
      assert |bs| == 0;
    }
  }

  lemma {:induction false} IdsSeqMember(cs: seq<Node>, k: nat)
    requires k < |cs|
    ensures Ids(cs[k]) <= IdsSeq(cs)
    ensures ParamIds(cs[k]) <= ParamIdsSeq(cs)
  {
    if k > 0 {
      IdsSeqMember(cs[1..], k - 1);
      assert cs[1..][k - 1] == cs[k];
    }
  }

  /** In a tree, the subtrees of two different children share no module. */
  lemma {:induction false} SiblingsDisjoint(cs: seq<Node>, a: nat, b: nat)
    requires UniqueIdsSeq(cs) && a < b < |cs|
    ensures Ids(cs[a]) !! Ids(cs[b])
  {
    if a == 0 {
      IdsSeqMember(cs[1..], b - 1);
      assert cs[1..][b - 1] == cs[b];
    } else {
      SiblingsDisjoint(cs[1..], a - 1, b - 1);
      assert cs[1..][a - 1] == cs[a] && cs[1..][b - 1] == cs[b];
    }
  }

  /** Every BaseModule of the tree has an `init_cfg` whose list elements are
      all dicts, so the split never raises. */
  predicate RulesWellFormed(n: Node) {
    && (n.kind.Base? ==> SplitCfg(n.kind.cfg).Split?)
    && forall k :: 0 <= k < |n.children| ==> RulesWellFormed(n.children[k])
  }

  /** Installing or removing the map twice is the same as doing it once. */
  lemma {:induction false} SetTrackingTwice(n: Node, a: bool, b: bool)
    ensures SetTracking(SetTracking(n, a), b) == SetTracking(n, b)
    decreases n, 1
  {
    SetTrackingTwiceSeq(n.children, a, b);
  }

  lemma {:induction false} SetTrackingTwiceSeq(cs: seq<Node>, a: bool, b: bool)
    ensures SetTrackingSeq(SetTrackingSeq(cs, a), b) == SetTrackingSeq(cs, b)
    decreases cs, 0
  {
    var l := SetTrackingSeq(SetTrackingSeq(cs, a), b);
    forall k | 0 <= k < |cs| ensures l[k] == SetTrackingSeq(cs, b)[k] {
      SetTrackingSeqAt(cs, a, k);
      SetTrackingSeqAt(SetTrackingSeq(cs, a), b, k);
      SetTrackingSeqAt(cs, b, k);
      SetTrackingTwice(cs[k], a, b);
    }
  }

  lemma SetTrackingSeqAt(cs: seq<Node>, b: bool, k: nat)
    requires k < |cs|
    ensures SetTrackingSeq(cs, b)[k] == SetTracking(cs[k], b)
  {
    if k > 0 {
      SetTrackingSeqAt(cs[1..], b, k - 1);
    }
  }
}

=== FILE: provenance.dfy ===
/** What the report of `_finalize_init` says about each parameter
    (perceptia/modules/base_module.py, lines 53-56, 91-93, 104-126): every
    parameter of the tree once, in `named_parameters()` order, attributed to
    the last direct child that initialised a subtree holding it, and
    otherwise to the module the top-level call was made on. */
module Provenance {
  import opened InitConfig
  import opened ModuleTree
  import opened BaseModule

  /** Reference attribution among the children `cs` of the module a walk is
      on: the last visited child whose subtree holds `pid`, or `base` when no
      visited child holds it. */
  function Attribution(cs: seq<Node>, pid: ParamId, base: Info): Info {
    if |cs| == 0 then base
    else
      var last := cs[|cs| - 1];
      if Visited(last) && pid in ParamIds(last) then UserDefined(last.cls)
      else Attribution(cs[..|cs| - 1], pid, base)
  }

  /** What the report says about `pid` after a top-level call on `n` that
      returned normally. */
  function ReportedInfo(n: Node, pid: ParamId): Info {
    if IsInit(n) then Unchanged(n.cls) else Attribution(n.children, pid, Unchanged(n.cls))
  }

  /** Reading the attribution from the first child on. */
  lemma {:induction false} AttributionCons(cs: seq<Node>, pid: ParamId, base: Info)
    requires |cs| > 0
    ensures Attribution(cs, pid, base) == Attribution(cs[1..], pid, Attribution([cs[0]], pid, base))
    decreases |cs|
  {
    if |cs| > 1 {
      var init := cs[..|cs| - 1];
      assert init[0] == cs[0];
      assert init[1..] == cs[1..][..|cs[1..]| - 1];
      assert cs[1..][|cs[1..]| - 1] == cs[|cs| - 1];
      AttributionCons(init, pid, base);
    } else {
      assert cs == [cs[0]];
    }
  }

  predicate SameAttribution(a: Node, b: Node) {
    Visited(a) == Visited(b) && ParamIds(a) == ParamIds(b) && a.cls == b.cls
  }

  /** Attribution only looks at kinds, classes and parameter sets. */
  lemma {:induction false} AttributionPointwise(as_: seq<Node>, bs: seq<Node>, pid: ParamId, base: Info)
    requires |as_| == |bs| && forall k :: 0 <= k < |as_| ==> SameAttribution(as_[k], bs[k])
    ensures Attribution(as_, pid, base) == Attribution(bs, pid, base)
    decreases |as_|
  {
    if |as_| > 0 {
      var n := |as_|;
      assert SameAttribution(as_[n - 1], bs[n - 1]);
      AttributionPointwise(as_[..n - 1], bs[..n - 1], pid, base);
    }
  }

  lemma TrackingKeepsAttribution(cs: seq<Node>, t: bool, pid: ParamId, base: Info)
    ensures Attribution(SetTrackingSeq(cs, t), pid, base) == Attribution(cs, pid, base)
  {
    var ts := SetTrackingSeq(cs, t);
    forall k | 0 <= k < |cs| ensures SameAttribution(ts[k], cs[k]) {
      SetTrackingSeqAt(cs, t, k);
      EraseInvariants(ts[k], cs[k]);
    }
    AttributionPointwise(ts, cs, pid, base);
  }

  // ---------------------------------------------------------------------
  // Frame: a call touches only the entries of its own subtree

  /** A call changes the tracking map only at the parameters of its own
      subtree; a top-level call leaves the caller's map exactly as it was. */
  lemma {:induction false} InitWeightsFrame(n: Node, prov: Prov, accept: Dispatch)
    requires n.kind.Base?
    ensures var r := InitWeights(n, prov, accept);
              && (!n.tracked ==> r.prov == prov)
              && forall pid :: pid in prov && pid !in ParamIds(n) ==> pid in r.prov && r.prov[pid] == prov[pid]
    decreases Size(n), 1
  {
    if n.tracked && !n.kind.isInit {
      WalkFrame(n, prov, accept);
    }
  }

  lemma {:induction false} WalkFrame(m: Node, p: Prov, accept: Dispatch)
    requires m.kind.Base? && !m.kind.isInit
    ensures var r := Walk(m, p, accept);
              forall pid :: pid in p && pid !in ParamIds(m) ==> pid in r.prov && r.prov[pid] == p[pid]
    decreases Size(m), 0
  {
    match SplitCfg(m.kind.cfg)
    case NotADict(_) =>
    case Split(other, pretrained) =>
      if !(|other| > 0 && !accept(m.id, other)) {
        ChildrenFrame(m.children, p, accept);
      }
  }

  lemma {:induction false} ChildrenFrame(cs: seq<Node>, p: Prov, accept: Dispatch)
    ensures var r := VisitChildren(cs, p, accept);
              forall pid :: pid in p && pid !in ParamIdsSeq(cs) ==> pid in r.prov && r.prov[pid] == p[pid]
    decreases SizeSeq(cs), 2
  {
    if |cs| > 0 {
      var c := cs[0];
      if c.kind.Base? && !c.kind.isInit {
        InitWeightsFrame(c, p, accept);
        var w := InitWeights(c, p, accept);
        if w.outcome.Done? {
          EraseInvariants(w.node, c);
          ChildrenFrame(cs[1..], UpdateInfo(w.prov, w.node), accept);
        }
      } else if c.kind.Foreign? {
        ChildrenFrame(cs[1..], UpdateInfo(p, c), accept);
      } else {
        ChildrenFrame(cs[1..], p, accept);
      }
    }
  }

  // ---------------------------------------------------------------------
  // Attribution by the children loop

  /** Lines 87-93: after the children loop returns normally, each entry of
      the map it started from is attributed to the last visited child whose
      subtree holds it, and is otherwise as it was. */
  lemma {:induction false} ChildrenAttribution(cs: seq<Node>, p: Prov, accept: Dispatch)
    ensures var r := VisitChildren(cs, p, accept);
              r.outcome.Done? ==>
                forall pid :: pid in p ==> pid in r.prov && r.prov[pid] == Attribution(cs, pid, p[pid])
    decreases cs
  {
    if |cs| > 0 {
      var r := VisitChildren(cs, p, accept);
      var c := cs[0];
      var q: Prov;
      if c.kind.Base? && !c.kind.isInit {
        var w := InitWeights(c, p, accept);
        if w.outcome.Failed? {
          return;
        }
        InitWeightsFrame(c, p, accept);
        EraseInvariants(w.node, c);
        q := UpdateInfo(w.prov, w.node);
      } else if c.kind.Foreign? {
        q := UpdateInfo(p, c);
      } else {
        q := p;
      }
      assert r == VisitChildren(cs[1..], q, accept).(children := r.children, trace := r.trace);
      if r.outcome.Done? {
        ChildrenAttribution(cs[1..], q, accept);
        forall pid | pid in p ensures pid in r.prov && r.prov[pid] == Attribution(cs, pid, p[pid]) {
          assert pid in q && q[pid] == Attribution([c], pid, p[pid]);
          AttributionCons(cs, pid, p[pid]);
        }
      }
    }
  }

  /** The walk returns the children loop's map when it returns normally. */
  lemma WalkDoneProv(m: Node, p: Prov, accept: Dispatch)
    requires m.kind.Base? && !m.kind.isInit
    ensures var r := Walk(m, p, accept);
              r.outcome.Done? ==> r.prov == VisitChildren(m.children, p, accept).prov
  {
  }

  // ---------------------------------------------------------------------
  // The report

  /** `named_parameters()` does not depend on the mutable flags. */
  lemma {:induction false} AllParamsErase(a: Node, b: Node, prefix: string)
    requires Erase(a) == Erase(b)
    ensures AllParams(a, prefix) == AllParams(b, prefix)
    decreases a, 1
  {
    AllParamsSeqErase(a.children, b.children, prefix);
  }

  lemma {:induction false} AllParamsSeqErase(as_: seq<Node>, bs: seq<Node>, prefix: string)
    requires EraseSeq(as_) == EraseSeq(bs)
    ensures AllParamsSeq(as_, prefix) == AllParamsSeq(bs, prefix)
    decreases as_, 0
  {
    EraseInvariantsSeq(as_, bs);
    if |as_| > 0 {
      assert EraseSeq(as_)[1..] == EraseSeq(as_[1..]);
      assert EraseSeq(bs)[1..] == EraseSeq(bs[1..]);
      assert Erase(as_[0]).key == as_[0].key && Erase(bs[0]).key == bs[0].key;
      AllParamsErase(as_[0], bs[0], Qualify(prefix, as_[0].key));
      AllParamsSeqErase(as_[1..], bs[1..], prefix);
    }
  }

  lemma NamedParametersErase(a: Node, b: Node)
    requires Erase(a) == Erase(b)
    ensures NamedParameters(a) == NamedParameters(b)
  {
    AllParamsErase(a, b, "");
  }

  /** A list without repeated identities has one entry per identity. */
  lemma {:induction false} DistinctCount(ps: seq<NamedParam>)
    requires DistinctIds(ps)
    ensures |ListedIds(ps)| == |ps|
    decreases |ps|
  {
    if |ps| > 0 {
      var rest := ps[1..];
      assert ListedIds(ps) == {ps[0].param.id} + ListedIds(rest) by {
        forall x | x in ListedIds(ps) ensures x in {ps[0].param.id} + ListedIds(rest) {
          var k :| 0 <= k < |ps| && ps[k].param.id == x;
          if k > 0 { assert rest[k - 1] == ps[k]; }
        }
        forall x | x in ListedIds(rest) ensures x in ListedIds(ps) {
          var k :| 0 <= k < |rest| && rest[k].param.id == x;
          assert ps[k + 1] == rest[k];
        }
        assert ps[0].param.id in ListedIds(ps);
      }
      assert ps[0].param.id !in ListedIds(rest);
      DistinctCount(rest);
    }
  }

  /** Lines 112-114 and 120-122 write one line per distinct parameter of the
      tree: shared parameters are reported once. */
  lemma ReportLineCount(n: Node, p: Prov)
    requires ParamIds(n) <= p.Keys
    ensures |Report(n, p)| == |ParamIds(n)|
  {
    DistinctCount(NamedParameters(n));
  }

  /** A report of the tree `n` after a call that returned normally lists
      `named_parameters()` in order with the attribution `ReportedInfo`. */
  predicate ReportsAsAttributed(n: Node, e: Event) {
    var ps := NamedParameters(n);
    && e.Finalize? && e.node == n.id
    && |e.records| == |ps|
    && forall i :: 0 <= i < |ps| ==>
         e.records[i] == Record(ps[i].name, ps[i].param.shape, ReportedInfo(n, ps[i].param.id))
  }

  /** Lines 53-56, 91-93 and 104-126 together: a top-level call that returns
      normally ends with a report that lists every parameter of the tree, in
      `named_parameters()` order, with its name and shape, attributed to the
      last visited direct child holding it, and otherwise to the module the
      call was made on; on an already initialised module everything is
      reported unchanged. */
  lemma TopLevelReport(n: Node, prov: Prov, accept: Dispatch)
    requires n.kind.Base? && !n.tracked
    ensures var r := InitWeights(n, prov, accept);
              r.outcome.Done? ==> |r.trace| > 0 && ReportsAsAttributed(n, r.trace[|r.trace| - 1])
  {
    var m := SetTracking(n, true);
    var d := Defaults(n);
    var r := InitWeights(n, prov, accept);
    var last: Node, q: Prov;
    if m.kind.isInit {
      last, q := m, d;
    } else {
      var w := Walk(m, d, accept);
      if w.outcome.Failed? {
        return;
      }
      WalkDoneProv(m, d, accept);
      ChildrenAttribution(m.children, d, accept);
      forall pid | pid in ParamIds(n) ensures pid in w.prov && w.prov[pid] == ReportedInfo(n, pid) {
        TrackingKeepsAttribution(n.children, true, pid, Unchanged(n.cls));
      }
      last, q := w.node, w.prov;
    }
    EraseInvariants(last, n);
    assert r.trace[|r.trace| - 1] == Finalize(last.id, Report(last, q));
    ReportMatches(n, last, q);
  }

  /** The report on a tree whose map holds `ReportedInfo` for every parameter. */
  lemma ReportMatches(n: Node, last: Node, q: Prov)
    requires Erase(last) == Erase(n) && ParamIds(n) <= q.Keys
    requires forall pid :: pid in ParamIds(n) ==> q[pid] == ReportedInfo(n, pid)
    ensures ParamIds(last) <= q.Keys
    ensures ReportsAsAttributed(n, Finalize(last.id, Report(last, q)))
  {
    EraseInvariants(last, n);
    NamedParametersErase(last, n);
    var ps := NamedParameters(n);
    forall i | 0 <= i < |ps| ensures ps[i].param.id in ParamIds(n) {
      assert ps[i].param.id in ListedIds(ps);
    }
  }
}

=== FILE: tracking.dfy ===
/** The lifecycle of the `_params_init_info` tracking map
    (perceptia/modules/base_module.py, lines 46-61, 65-66, 101-102, 125-126):
    created only when absent, installed on every module before any work, so
    that recursive calls are never top-level, and removed by the top-level
    call alone. */
module TrackingLifecycle {
  import opened InitConfig
  import opened ModuleTree
  import opened BaseModule
  import InitOrder

  /** No tracking map is created or finalised within these events. */
  predicate NoMapEvents(t: seq<Event>) {
    forall e :: e in t ==> !e.CreateMap? && !e.Finalize?
  }

  /** A call on a module whose whole tree already holds the map is not
      top-level, and neither is any call it makes: no map is created or
      reported, and the map stays installed everywhere. */
  lemma {:induction false} NestedCallsNeverTopLevel(n: Node, prov: Prov, accept: Dispatch)
    requires n.kind.Base? && EveryTracked(n, true)
    ensures var r := InitWeights(n, prov, accept);
              NoMapEvents(r.trace) && EveryTracked(r.node, true)
    decreases Size(n), 1
  {
    if !n.kind.isInit {
      NestedWalk(n, prov, accept);
    }
  }

  lemma {:induction false} NestedWalk(m: Node, p: Prov, accept: Dispatch)
    requires m.kind.Base? && !m.kind.isInit && EveryTracked(m, true)
    ensures var r := Walk(m, p, accept);
              NoMapEvents(r.trace) && EveryTracked(r.node, true)
    decreases Size(m), 0
  {
    match SplitCfg(m.kind.cfg)
    case NotADict(_) =>
    case Split(other, pretrained) =>
      if !(|other| > 0 && !accept(m.id, other)) {
        NestedChildren(m.children, p, accept);
      }
  }

  lemma {:induction false} NestedChildren(cs: seq<Node>, p: Prov, accept: Dispatch)
    requires forall k :: 0 <= k < |cs| ==> EveryTracked(cs[k], true)
    ensures var r := VisitChildren(cs, p, accept);
              NoMapEvents(r.trace) && forall k :: 0 <= k < |r.children| ==> EveryTracked(r.children[k], true)
    decreases SizeSeq(cs), 2
  {
    if |cs| > 0 {
      var c := cs[0];
      assert EveryTracked(c, true);
      if c.kind.Base? && !c.kind.isInit {
        NestedCallsNeverTopLevel(c, p, accept);
        var w := InitWeights(c, p, accept);
        if w.outcome.Done? {
          NestedChildren(cs[1..], UpdateInfo(w.prov, w.node), accept);
        }
      } else if c.kind.Foreign? {
        NestedChildren(cs[1..], UpdateInfo(p, c), accept);
      } else {
        NestedChildren(cs[1..], p, accept);
      }
    }
  }

  /** A top-level call creates exactly one map, first; when it returns
      normally it reports exactly once, last, and no module of the tree holds
      the map any more, on the already-initialised path too. When it raises,
      nothing is reported and the map is left on every module. */
  lemma TopLevelLifecycle(n: Node, prov: Prov, accept: Dispatch)
    requires n.kind.Base? && !n.tracked
    ensures var r := InitWeights(n, prov, accept);
              && |r.trace| >= 1 && r.trace[0] == CreateMap(n.id)
              && (r.outcome.Done? ==>
                    && EveryTracked(r.node, false)
                    && |r.trace| >= 2
                    && r.trace[|r.trace| - 1].Finalize? && r.trace[|r.trace| - 1].node == n.id
                    && NoMapEvents(r.trace[1..|r.trace| - 1]))
              && (r.outcome.Failed? ==> EveryTracked(r.node, true) && NoMapEvents(r.trace[1..]))
  {
    var m := SetTracking(n, true);
    var r := InitWeights(n, prov, accept);
    if m.kind.isInit {
      assert r.trace[1..|r.trace| - 1] == [Warn(n.id)];
    } else {
      NestedWalk(m, Defaults(n), accept);
      var w := Walk(m, Defaults(n), accept);
      if w.outcome.Done? {
        assert r.trace[1..|r.trace| - 1] == w.trace;
      } else {
        assert r.trace[1..] == w.trace;
      }
    }
  }

  /** A call creates a map for the module it is made on iff that module holds
      none on entry. */
  lemma CreatesMapIffAbsent(n: Node, prov: Prov, accept: Dispatch)
    requires n.kind.Base? && UniqueIds(n)
    ensures CreateMap(n.id) in InitWeights(n, prov, accept).trace <==> !n.tracked
  {
    var r := InitWeights(n, prov, accept);
    if !n.tracked {
      TopLevelLifecycle(n, prov, accept);
      assert r.trace[0] == CreateMap(n.id);
    } else if !n.kind.isInit {
      InitOrder.WalkTraceWithin(n, prov, accept);
    }
  }

  /** Line 84, 90 or 97 raising skips lines 101-102: the map stays on every
      module, so calling `init_weights` again on the same tree is never
      top-level and never reports or removes the map. */
  lemma RetryAfterFailureNeverReports(n: Node, prov: Prov, accept: Dispatch, prov2: Prov)
    requires n.kind.Base? && !n.tracked
    ensures var r := InitWeights(n, prov, accept);
              r.outcome.Failed? ==>
                && r.node.kind.Base?
                && var r2 := InitWeights(r.node, prov2, accept);
                     NoMapEvents(r2.trace) && EveryTracked(r2.node, true)
  {
    var r := InitWeights(n, prov, accept);
    if r.outcome.Failed? {
      TopLevelLifecycle(n, prov, accept);
      EraseInvariants(r.node, n);
      assert EraseKind(r.node.kind).Base? == EraseKind(n.kind).Base?;
      NestedCallsNeverTopLevel(r.node, prov2, accept);
    }
  }
}
